=== FILE: README.md ===
# genSTARK core in Dafny

A model of the core of genSTARK, a library that generates and verifies
zk-STARK proofs:

- **Execution-trace builder.** It expands per-round inputs through a compiled transition function into a register-by-step trace. It also checks point assertions against a trace.
- **FRI low-degree prover and verifier.** This is the quartic-folding variant: each round folds four rows into one column value at a pseudo-random challenge. Folding stops at 256 values, which are sent in the clear. The verifier replays each round at queried positions and then checks the remainder.
- **Proof-size accountant.** It computes the serialized byte length of a proof from its shape, under the wire format's bounds.
- **Configuration validation and defaulting** (`parseStarkConfig`).
- **Two example helpers.** One is the Fibonacci transition and its constraints. The other is the bit decomposition of a Merkle index and its alignment shift.

The finite field, Merkle trees, the hash and the query-index generator
live in other libraries. They appear as function-valued fields of
`Primitives.Backend`. The predicates there state only what the prover and
verifier rely on:

- query positions are in range;
- an opening carries the opened leaves;
- honest openings verify;
- a verified opening has one value per position.

Field multiplication and exponentiation are concrete (`ModArith.Mul`,
`ModArith.Exp`). Every thrown exception is a `Failure`/`Fail` value whose
constructor names the error.

Files:

| file | module | contents |
|---|---|---|
| Results.dfy | Results | `Result`, `Outcome`, `Option` |
| ModArith.dfy | ModArith | powers, modular multiplication and exponentiation, squaring chains, power-of-two facts |
| Primitives.dfy | Primitives | the abstract backend, `getPowerSeries`, `vectorToMatrix` |
| TraceBuilder.dfy | TraceBuilder | `compute`, `validateAssertions` |
| LowDegreeProver.dfy | LowDegreeProver | `computeRootOfUnityDegree`, position expansion, `verifyRemainder`, `verify`, `fri`, `prove`, completeness |
| SizeOf.dfy | SizeOf | `sizeOfArray`, `sizeOfMatrix`, `sizeOfMerkleProof`, `sizeOf` |
| Config.dfy | Config | `parseStarkConfig` lines 26–124 |
| Fibonacci.dfy | Fibonacci | the Fibonacci example |
| Lib128.dfy | Lib128 | `toBinaryArray` and the unshift/pop alignment |

## Model

| member | source | states |
|---|---|---|
| TraceBuilder.Compute | bin/lib/components/TraceBuilder.js:17-54 | The build succeeds exactly when an execution trace exists. The result is that trace, with one row per register, each `totalSteps` long (one cell when `totalSteps` is 0). Any failure of the transition inside the build is reported as `TraceGenerationFailed` and no trace is returned. Readonly lookups are taken to be total. When there is a register, a step count outside `new Array`'s range 0 to `2^32 - 1` fails with `InvalidArrayLength` (`NoTraceForInvalidLength`). |
| TraceBuilder.TraceCells | bin/lib/components/TraceBuilder.js:26-47 | Step 0 holds `inputs[r][0]`. At a round start, step `s+1` holds `inputs[r][(s+1)/roundSteps]`, whatever the transition returned. Any other step holds the transition output for column `s`, readonly values at `s` and the global constants. |
| TraceBuilder.TraceIsUnique | bin/lib/components/TraceBuilder.js:31-48 | The build is deterministic: two traces satisfying the per-step rules on the same inputs are equal. |
| TraceBuilder.NoTraceForInvalidLength | bin/lib/components/TraceBuilder.js:27 | With at least one register, a step count below 0 or at least `2^32` admits no trace, because `new Array(steps)` throws a `RangeError`. |
| TraceBuilder.TraceFirstCell | bin/lib/components/TraceBuilder.js:26-29 | For any step count, every register's row of a trace is `RowLength` long, at least one cell, and step 0 holds the register's first input. |
| TraceBuilder.CheckAssertion | bin/lib/components/TraceBuilder.js:60-70 | One assertion passes exactly when it holds. A failure is the integrity error exactly when the coordinates are in range, and then it names the step and register. |
| TraceBuilder.CheckAll | bin/lib/components/TraceBuilder.js:58-71 | All assertions pass exactly when each holds. Otherwise the error is the one of the first failing assertion in list order. |
| TraceBuilder.ValidateAssertions | bin/lib/components/TraceBuilder.js:55-72 | Passes exactly when the trace has a row and every assertion is in range and matches. A register-less trace fails before any assertion is read. A failure is the first failing assertion's own error, for example `ConflictsWithTrace(step, register)`. It is the integrity error exactly when that assertion is in range. |
| TraceBuilder.ReadAssertionsValidate | bin/lib/components/TraceBuilder.js:55-72 | Assertions read off the cells of a rectangular trace always validate against it. |
| TraceBuilder.ChangedAssertionFails | bin/lib/components/TraceBuilder.js:68-70 | Changing the value of one read-back assertion makes validation fail with the integrity error for exactly that cell. |
| TraceBuilder.ChangedCellFails | bin/lib/components/TraceBuilder.js:68-70 | Changing a trace cell that an assertion pins makes validation fail. |
| TraceBuilder.ComputedTraceValidates | bin/lib/components/TraceBuilder.js:17-72 | A computed trace with at least one register validates every assertion read from it. |
| LowDegreeProver.RootOfUnityDegree | lib/components/LowDegreeProver.ts:220-227 | Returns `2^k` for the least `k` at which squaring `rou` `k` times gives 1. So `rou^r == 1`, and `rou^(r/2) != 1` when `r >= 2`. |
| LowDegreeProver.DegreeUnique | lib/components/LowDegreeProver.ts:220-227 | The degree the loop computes is unique. |
| LowDegreeProver.ExpandDecodes | lib/components/LowDegreeProver.ts:65-71 | Slot `4i+k` of the expansion holds `positions[i] + k*L`. Dividing it by `L` gives back `k`, the remainder gives back the position, and it is below `4L`. |
| LowDegreeProver.ExpandDistinct | lib/components/LowDegreeProver.ts:170-176 | For distinct positions below `L`, the expanded positions are pairwise distinct and below `4L`. The prover and verifier share this one definition. |
| LowDegreeProver.QuarticRootIdentity | lib/components/LowDegreeProver.ts:85-90 | When `rouDegree` is divisible by 4, `quartic[k] * (rou^step)^p == rou^(step*p + k*rouDegree/4)`. So the four x-coordinates are the domain points of the four expanded positions. |
| LowDegreeProver.RemainderPositions | lib/components/LowDegreeProver.ts:188-193 | The selected remainder indices are in increasing order, below the length, and off the multiples of the extension factor (all indices when it is unset). Every such index is included. |
| LowDegreeProver.PointsOnPoly | lib/components/LowDegreeProver.ts:209-214 | True exactly when every selected point from the given index on evaluates to its remainder value. |
| LowDegreeProver.VerifyRemainder | lib/components/LowDegreeProver.ts:186-215 | A pass implies the degree bound is at most the remainder length. A failure is either too few selected points or `RemainderNotLowDegree(maxDegreePlus1 - 1)`. |
| LowDegreeProver.VerifyRemainderMeaning | lib/components/LowDegreeProver.ts:186-215 | Passes exactly when there are at least `maxDegreePlus1` selected points and every later selected point lies on the polynomial through the first `maxDegreePlus1`. |
| LowDegreeProver.RowsMatchColumn | lib/components/LowDegreeProver.ts:107-111 | True exactly when every rebuilt row polynomial evaluates at the challenge to its opened column value. |
| LowDegreeProver.CheckComponent | lib/components/LowDegreeProver.ts:53-111 | Passes exactly when both openings verify and every row polynomial meets the column. Every failure names this depth. The column-proof error occurs exactly when the column opening fails. |
| LowDegreeProver.CheckComponents | lib/components/LowDegreeProver.ts:52-118 | Accepted components leave the root at the last column root, the root of unity raised to `4^n`, and the degree bound and domain size quartered `n` times. Success means the first component is valid and the rest pass from the next parameters. An invalid first component fails with its own check's error at this depth. After a valid one, the rest's failure is passed on unchanged. So the error is that of the first invalid component, at its depth. |
| LowDegreeProver.ScheduleClosedForm | lib/components/LowDegreeProver.ts:113-117 | After `n` rounds the root of unity is `rou^(4^n)` and the degree bound is `floor(m / 4^n)`. |
| LowDegreeProver.VerifyWithDegree | lib/components/LowDegreeProver.ts:52-134 | Success is always `true`. It holds exactly when `Accepts` holds: every component passes at its depth, the quartered bound fits the remainder, the remainder's root is the last column root, and the remainder passes its degree check at the raised root. Errors come in throw order. First is a component's error. Next, once all components pass, `RemainderDegreeTooHigh(m, length)`. Then `RemainderRootMismatch`. Last comes the remainder check's own error. No failure is the array-length error. |
| LowDegreeProver.Verify | lib/components/LowDegreeProver.ts:41-135 | `verify` is the check run with the degree `computeRootOfUnityDegree` finds, for every root whose order is a power of two. |
| LowDegreeProver.FoldColumnRows | lib/components/LowDegreeProver.ts:149-159 | The folded column has one entry per row. Entry `q` is the polynomial through row `q`'s four domain points and four values, evaluated at the challenge drawn from the current root. |
| LowDegreeProver.Fri | lib/components/LowDegreeProver.ts:139-184 | On success there are `FoldCount(n)` components. When `fri` stops (at 256 values or fewer) the leaves it was given become the remainder. The only failures are the prover's own remainder-check errors. |
| LowDegreeProver.FriStops | lib/components/LowDegreeProver.ts:141-147 | At 256 values or fewer, `fri` succeeds exactly when its own remainder check passes with root `domain[1]^(4^depth)`. It then sends no component and the leaves; otherwise it fails with that check's error. |
| LowDegreeProver.FriFolds | lib/components/LowDegreeProver.ts:149-183 | Above 256 values, `fri` succeeds exactly when the call one depth down on the folded column succeeds. Its own component then comes first, followed by the deeper ones. |
| LowDegreeProver.CeilLog4 | lib/components/LowDegreeProver.ts:30 | `Math.ceil(Math.log2(n) / 2)` as the least `k` with `4^k >= n`. |
| LowDegreeProver.PresizeLength | lib/components/LowDegreeProver.ts:30 | The pre-size `ceil(log2(n)/2) - 4` is negative exactly when `n <= 64`. |
| LowDegreeProver.Prove | lib/components/LowDegreeProver.ts:28-39 | As written, `prove` fails with the array-length error exactly when there are at most 64 values. Otherwise it returns what `fri` builds from depth 0. |
| LowDegreeProver.SixtyFourValuesRejected | lib/components/LowDegreeProver.ts:30 | 64 values, a power of two, are rejected as written. The corrected version hands them to `fri`. |
| LowDegreeProver.ProveIntended | lib/components/LowDegreeProver.ts:28-39 | With the pre-size clamped at 0, `prove` never fails on the array length. On success the proof has exactly as many components as were pre-sized. |
| LowDegreeProver.PresizeMatchesFolds | lib/components/LowDegreeProver.ts:30 | For a power-of-two length, `max(ceil(log2(n)/2) - 4, 0)` equals the number of folding rounds `fri` performs. |
| LowDegreeProver.ProveAgreesAbove64 | lib/components/LowDegreeProver.ts:28-39 | Above 64 values, the as-written and corrected `prove` agree. |
| LowDegreeProver.HonestComponentValid | lib/components/LowDegreeProver.ts:149-183 | A component built by folding the powers of `rou` passes every check of that depth in the verifier. |
| LowDegreeProver.FriAccepted | lib/components/LowDegreeProver.ts:139-184 | From the parameters the verifier holds at a depth, it accepts every component and the remainder that `fri` sends from that depth. |
| LowDegreeProver.HonestProofAccepted | lib/components/LowDegreeProver.ts:41-135 | Completeness: an honest proof over the powers of `rou` makes `verify` return `true` for the domain size as the degree. |
| LowDegreeProver.RowsFollowExpansion | lib/components/LowDegreeProver.ts:64-71 | The prover's rows and the verifier's expansion agree. For `4L` values and column positions below `L`, every expanded position lies inside the values. Slot `4i + k` of the expansion opens entry `k` of the row that `vectorToMatrix(values, 4)` puts at column position `i`. |
| Primitives.PowerSeries | lib/components/LowDegreeProver.ts:196 | The series has `n` entries and entry `j` is `rou^j` in the field. Equivalently it is the recurrence that starts at one, where each entry is the previous one times `rou`. |
| SizeOf.SizeOfArray | bin/lib/utils/sizeof.js:46-58 | Succeeds exactly for 1 to 256 elements, with the empty or too-long error otherwise. The size is one length byte plus the concatenated element bytes. |
| SizeOf.SizeOfMatrix | bin/lib/utils/sizeof.js:59-76 | Succeeds exactly for at most 256 columns each shorter than 127. The error names the column count first, then the first long column. The size is `1 + columns + element bytes`, so an empty matrix costs 1. |
| SizeOf.SizeOfMerkleProof | bin/lib/utils/sizeof.js:36-42 | The values array, the nodes matrix and one depth byte. Either error is passed on, the array's first. |
| SizeOf.Size | bin/lib/utils/sizeof.js:9-34 | Succeeds exactly when every batch proof fits, and otherwise fails with the first misfit's error in measuring order. The report has one level per component plus a remainder level of `values * fieldElementSize + 1`, with no array bound on it. The totals are the stated sums. |
| Config.ParseStarkConfig | lib/config.ts:26-124 | Fails with the first check, in source order, that the configuration violates. Succeeds only when none of the modelled checks is violated; the code-generation errors are not modelled. It echoes the validated values with the defaults 0, the least power of two at least twice the degree, 80, 40 and `sha256`. The result is well formed. |
| Config.ExtensionFactor | lib/config.ts:44-61 | An absent factor becomes the default. An explicit factor is accepted exactly when it is an integer in [2, 32], a power of two and at least twice the degree, and it is then returned unchanged. Each error holds exactly when its check is the first one violated: range, then power of two, then the degree bound. Every accepted factor, default or explicit, meets all three bounds. |
| Config.CeilPow2 | lib/config.ts:47 | `2 ** Math.ceil(Math.log2(n))` as the least power of two at least `n`: a power of two, at least `n`, and below `2n`. |
| Config.DefaultExtensionFactorIsValid | lib/config.ts:46-61 | For every valid degree the default extension factor passes the checks an explicit one must pass. |
| Config.ReparseIsIdentity | lib/config.ts:26-124 | Parsing is idempotent: writing an accepted configuration's values out explicitly and parsing again gives the same result. |
| Fibonacci.Constraint1Vanishes | examples/fibonacci.ts:26-31 | The first constraint is zero exactly when register 0 becomes `v0 + v1` mod p. |
| Fibonacci.Constraint2Vanishes | examples/fibonacci.ts:34-40 | The second constraint is zero exactly when register 1 becomes `v0 + 2*v1` mod p. |
| Fibonacci.ConstraintsVanishOnTransition | examples/fibonacci.ts:15-40 | Both constraints vanish on every honest transition. |
| Fibonacci.RunIsFibonacci | examples/fibonacci.ts:13-23 | From (1, 1), `k` transitions give `(Fib(2k+1), Fib(2k+2))` mod p: two Fibonacci values per step. |
| Fibonacci.TraceIsFibonacci | examples/fibonacci.ts:57 | In the trace built from the example inputs, step `s` holds `Fib(2s+1)` and `Fib(2s+2)` mod p. |
| Fibonacci.ExampleAssertions | examples/fibonacci.ts:57-62 | The step-0 assertions always hold on the example trace. All three pass exactly when `result` is `Fib(2*steps)` mod p. |
| Lib128.ToBinaryArray | examples/assembly/lib128.ts:170-177 | Entry `j` is bit `j` of the value, least significant first. Every entry is 0 or 1, and the entries weigh back to the value. The length is the larger of `length` and the number of binary digits. So it is `length` when `length >= 1` and the value is below `2^length`; `(0, 0)` gives one entry. |
| Lib128.AlignToLoopEnd | examples/assembly/lib128.ts:93-95 | `unshift(0)` then `pop()` keeps the length, puts 0 first and moves entry `j` to `j+1`. |
| Lib128.AlignedWeight | examples/assembly/lib128.ts:93-95 | The aligned array weighs twice the original with its top bit dropped. |
| Lib128.AlignedIndex | examples/assembly/lib128.ts:139-141 | For an index below `2^length`, the aligned array has `length` entries: 0 first, then bit `j` at `j+1`. |
| Lib128.IndexFortyTwo | examples/assembly/lib128.ts:88-95 | Index 42 at depth 8 decomposes to `[0,1,0,1,0,1,0,0]` and aligns to `[0,0,1,0,1,0,1,0]`. |

## Findings

| source | as written | input that shows it | evidently intended | confidence | as-written member | corrected member |
|---|---|---|---|---|---|---|
| lib/components/LowDegreeProver.ts:30 | `Math.min(Math.ceil(Math.log2(n) / 2) - 4, 0)` pre-sizes the component array. The value is 0 or negative, so `new Array` throws `RangeError` whenever there are 64 values or fewer. | 64 evaluations (a trace of 8 steps at extension factor 8): `prove` throws before `fri` runs | `Math.max(…, 0)`: the number of folding rounds, never negative | medium; not executed | LowDegreeProver.SixtyFourValuesRejected | LowDegreeProver.ProveIntended |

The corrected pre-size equals the number of components `fri` produces
(`LowDegreeProver.PresizeMatchesFolds`). The completeness result
`LowDegreeProver.HonestProofAccepted` is stated for the corrected `prove`.
`LowDegreeProver.ProveAgreesAbove64` shows both versions agree wherever the
as-written one does not throw.

## Left out

- Finite-field internals are not modelled. `interpolate`, `interpolateQuartic`, `evalPolyAt` and `prng` are uninterpreted fields of `Primitives.Backend`. They live in a library that is not part of this model.
- `interpolateQuarticBatch` and `evalQuarticBatch` are modelled row by row, through `interpolateQuartic` and `evalPolyAt`. `matrixRowsToVectors` and `newMatrixFrom` become plain sequences.
- `vectorToMatrix` is given the column-major layout the verifier's expansion `p, p+L, p+2L, p+3L` assumes. The library's own definition is not part of this model.
- Merkle trees and hashing are opaque. `MerkleTree.create`, `proveBatch` and `verifyBatch` become the uninterpreted `Backend` fields `root`, `proveBatch` and `verifyBatch`. Only the facts in `Primitives.Valid` are assumed about them (openings carry the opened leaves and honest openings verify), and no soundness (collision resistance) is claimed.
- `QueryIndexGenerator.getFriIndexes` is an uninterpreted function assumed to return positions below the column length. Its extension factor is a field of the backend.
- Buffers and `buffersToBigInts` are left out: opened values are field elements directly.
- LowDegreeProver.VerifyRemainder: the source reads `positions[i]` past the end when there are fewer selected points than the degree bound asks for. That reads `undefined` into the field library, whose behaviour is not part of this model; here it is the error `RemainderTooFewPoints`.
- LowDegreeProver.Fri: requires a power-of-two length and a domain of at least two points. Outside those, `domain.getValue(1)` and the row split have no defined meaning in this model.
- LowDegreeProver.RootOfUnityDegree: requires that squaring reaches 1, because otherwise the source loop does not terminate.
- LowDegreeProver.Verify: states its result only for roots whose order is a power of two, for the same reason.
- Floating point is replaced by integer definitions: `Math.log2`/`Math.ceil` at lib/components/LowDegreeProver.ts:30 and lib/config.ts:47.
- The JavaScript `StarkError`/`Error`/`TypeError` classes and their messages become error constructors. Messages are not modelled.
- Config.ParseStarkConfig: the errors thrown while building code are not modelled, because they come from the expression parser, which is not part of this model. These are `buildTransitionFunction` at lib/config.ts:73 (for example a missing or empty `n0` expression, lib/config.ts:149-157) and `parseTransitionConstraints` at lib/config.ts:86. Both run before the spot-check and hash checks. So for such a configuration the model either succeeds or reports a later check.
- Config.ParseStarkConfig: JavaScript numbers are reals; NaN, infinities and non-number values of number fields are not modelled.
- Config.ParseStarkConfig: the check at lib/config.ts:78 (`Array.isArray(!cExpressions)`) is always false, so it is not modelled as a guard.
- Code generation at lib/config.ts:128-229 (`buildTransitionFunction`, the constraint evaluators, `parseTransitionConstraints`) builds and compiles source text with an expression parser that is not part of this model. The parsed configuration omits those evaluators.
- TraceBuilder.Compute: requires that every register's inputs cover step 0 and every round start reached. The source would otherwise store `undefined` in the trace.
- Lib128.ToBinaryArray: lengths of `2^32` or more, for which `new Array(length)` (examples/assembly/lib128.ts:172) throws a `RangeError`, are not modelled. The model returns the sequence. The helper is only called with Merkle-tree depths.
- TraceBuilder.Compute: readonly lookups are total functions. A `getValue` that throws inside the build (bin/lib/components/TraceBuilder.js:33-35) would become `TraceGenerationFailed` in the source (:50-52). That case is not modelled, so the if-and-only-if with `IsTraceOf` covers only readonly registers that do not throw.
- The transition function and readonly registers are function-valued parameters. Only the width contract `KeepsWidth` is assumed of the transition.
- SizeOf reads the remainder as `remainder.values` (bin/lib/utils/sizeof.js:28), while `LowDegreeProver` builds the remainder as a plain array. The two proof shapes are modelled separately, as each file has them.
- Fibonacci: the example passes the flat inputs `[1n, 1n]` (examples/fibonacci.ts:57). The trace builder reads `inputs[register][0]`, so the model uses one input list per register, `[[1], [1]]`.
- Fibonacci.ExampleAssertions: covers traces with no round start inside them; the example's concrete `steps = 2**13` and `result` are not evaluated.
- examples/mimc.ts is not modelled: its transition is an expression string run through the expression parser, which is not part of this model.
- The example drivers (Stark construction, prove/serialize/parse/verify calls, timing, logging, `buildLeaves`, `instantiate`) are not modelled.

=== FILE: Config.dfy ===
/** Validation and defaulting of a STARK configuration (`parseStarkConfig`).

    A configuration object arrives with optional fields. JavaScript numbers
    are modelled as reals so that "must be an integer" is a real check; a
    number field is falsy when absent or zero. Every rejection is a
    `TypeError`. Compiling the transition and constraint expressions into
    evaluators is not part of this model. */
module Config {
  import opened Results
  import ModArith

  const MAX_REGISTER_COUNT: nat := 64
  const MAX_CONSTANT_COUNT: nat := 64
  const MAX_CONSTRAINT_COUNT: nat := 1024
  const MAX_CONSTRAINT_DEGREE: nat := 16
  const MAX_EXTENSION_FACTOR: nat := 32
  const MAX_EXE_SPOT_CHECK_COUNT: nat := 128
  const MAX_FRI_SPOT_CHECK_COUNT: nat := 64

  const DEFAULT_EXE_SPOT_CHECK_COUNT: nat := 80
  const DEFAULT_FRI_SPOT_CHECK_COUNT: nat := 40

  const HASH_ALGORITHMS: seq<string> := ["sha256", "blake2s256"]

  /** The configuration as supplied; `F` is the finite-field object. */
  datatype StarkConfig<F> = StarkConfig(
    field: Option<F>,
    constantCount: Option<real>,
    tConstraintDegree: Option<real>,
    extensionFactor: Option<real>,
    tExpressions: Option<map<string, string>>,
    tConstraints: Option<seq<string>>,
    exeSpotCheckCount: Option<real>,
    friSpotCheckCount: Option<real>,
    hashAlgorithm: Option<string>)

  /** The validated configuration. */
  datatype ParsedConfig<F> = ParsedConfig(
    field: F,
    registerCount: nat,
    constantCount: nat,
    constraintCount: nat,
    maxDegree: nat,
    extensionFactor: nat,
    exeSpotCheckCount: nat,
    friSpotCheckCount: nat,
    hashAlgorithm: string)

  /** One constructor per `TypeError` the parser throws, in source order. */
  datatype ConfigError =
    | ConfigMissing
    | FieldMissing
    | BadConstantCount
    | BadConstraintDegree
    | ExtensionFactorOutOfRange
    | ExtensionFactorNotPowerOf2
    | ExtensionFactorTooSmall
    | TransitionMissing
    | NoRegisters
    | TooManyRegisters
    | ConstraintsMissing
    | NoConstraints
    | TooManyConstraints
    | BadExeSpotCheckCount
    | BadFriSpotCheckCount
    | UnsupportedHash(name: string)

  // ---------------------------------------------------------------------------
  // JavaScript number helpers

  predicate IsInteger(x: real)
  {
    x == x.Floor as real
  }

  /** `x || d` for an optional number. */
  function OrDefault(x: Option<real>, d: real): real
  {
    if x.None? || x.value == 0.0 then d else x.value
  }

  /** An integer-valued number between `lo` and `hi` inclusive. */
  predicate IntegerIn(x: real, lo: int, hi: int)
  {
    lo as real <= x <= hi as real && IsInteger(x)
  }

  /** `2 ** Math.ceil(Math.log2(n))`: the smallest power of two at least `n`. */
  function CeilPow2(n: int): (r: nat)
    ensures ModArith.IsPowerOf2(r) && r >= n
    ensures n >= 1 ==> r < 2 * n
    decreases n
  {
    if n <= 1 then 1 else 2 * CeilPow2((n + 1) / 2)
  }

  lemma PowerOf2Doubles(n: int)
    requires ModArith.IsPowerOf2(n)
    ensures ModArith.IsPowerOf2(2 * n)
  {
  }

  // ---------------------------------------------------------------------------
  // The checks, each stated on its own

  function HashOrDefault(h: Option<string>): string
  {
    if h.None? || h.value == "" then "sha256" else h.value
  }

  /** The check reported by `e` fails on `c` (reading every earlier field
      with its default). */
  ghost predicate Violates<F>(c: Option<StarkConfig<F>>, e: ConfigError)
  {
    match e
    case ConfigMissing => c.None?
    case FieldMissing => c.Some? && c.value.field.None?
    case BadConstantCount => c.Some? && !IntegerIn(OrDefault(c.value.constantCount, 0.0), 0, MAX_CONSTANT_COUNT)
    case BadConstraintDegree =>
      c.Some? && (c.value.tConstraintDegree.None? || !IntegerIn(c.value.tConstraintDegree.value, 1, MAX_CONSTRAINT_DEGREE))
    case ExtensionFactorOutOfRange =>
      c.Some? && c.value.extensionFactor.Some? && !IntegerIn(c.value.extensionFactor.value, 2, MAX_EXTENSION_FACTOR)
    case ExtensionFactorNotPowerOf2 =>
      c.Some? && c.value.extensionFactor.Some? && !ModArith.IsPowerOf2(c.value.extensionFactor.value.Floor)
    case ExtensionFactorTooSmall =>
      c.Some? && c.value.extensionFactor.Some? && c.value.tConstraintDegree.Some?
      && c.value.extensionFactor.value < 2.0 * c.value.tConstraintDegree.value
    case TransitionMissing => c.Some? && c.value.tExpressions.None?
    case NoRegisters => c.Some? && c.value.tExpressions.Some? && |c.value.tExpressions.value| == 0
    case TooManyRegisters => c.Some? && c.value.tExpressions.Some? && |c.value.tExpressions.value| > MAX_REGISTER_COUNT
    case ConstraintsMissing => c.Some? && c.value.tConstraints.None?
    case NoConstraints => c.Some? && c.value.tConstraints.Some? && |c.value.tConstraints.value| == 0
    case TooManyConstraints => c.Some? && c.value.tConstraints.Some? && |c.value.tConstraints.value| > MAX_CONSTRAINT_COUNT
    case BadExeSpotCheckCount =>
      c.Some? && !IntegerIn(OrDefault(c.value.exeSpotCheckCount, DEFAULT_EXE_SPOT_CHECK_COUNT as real), 1, MAX_EXE_SPOT_CHECK_COUNT)
    case BadFriSpotCheckCount =>
      c.Some? && !IntegerIn(OrDefault(c.value.friSpotCheckCount, DEFAULT_FRI_SPOT_CHECK_COUNT as real), 1, MAX_FRI_SPOT_CHECK_COUNT)
    case UnsupportedHash(name) =>
      c.Some? && name == HashOrDefault(c.value.hashAlgorithm) && name !in HASH_ALGORITHMS
  }

  /** The position of a check in the parser. */
  function Rank(e: ConfigError): nat
  {
    match e
    case ConfigMissing => 0
    case FieldMissing => 1
    case BadConstantCount => 2
    case BadConstraintDegree => 3
    case ExtensionFactorOutOfRange => 4
    case ExtensionFactorNotPowerOf2 => 5
    case ExtensionFactorTooSmall => 6
    case TransitionMissing => 7
    case NoRegisters => 8
    case TooManyRegisters => 9
    case ConstraintsMissing => 10
    case NoConstraints => 11
    case TooManyConstraints => 12
    case BadExeSpotCheckCount => 13
    case BadFriSpotCheckCount => 14
    case UnsupportedHash(_) => 15
  }

  /** No check fails. */
  ghost predicate Acceptable<F>(c: Option<StarkConfig<F>>)
  {
    forall e :: !Violates(c, e)
  }

  // ---------------------------------------------------------------------------
  // parseStarkConfig

  /** Validates `c` and fills in defaults. It fails with the first check, in
      source order, that `c` violates, and succeeds exactly when none is
      violated. A falsy constant count becomes 0, an absent extension factor
      the smallest power of two at least twice the constraint degree, falsy
      spot-check counts 80 and 40, and a falsy hash algorithm `sha256`. */
  function ParseStarkConfig<F>(c: Option<StarkConfig<F>>): (r: Result<ParsedConfig<F>, ConfigError>)
    ensures r.Failure? ==> Violates(c, r.error)
    ensures r.Failure? ==> forall e :: Rank(e) < Rank(r.error) ==> !Violates(c, e)
    ensures r.Success? ==> Acceptable(c)
    ensures r.Success? ==>
      c.Some? &&
      var cfg, p := c.value, r.value;
      && Some(p.field) == cfg.field
      && cfg.tExpressions.Some? && p.registerCount == |cfg.tExpressions.value|
      && cfg.tConstraints.Some? && p.constraintCount == |cfg.tConstraints.value|
      && p.constantCount as real == OrDefault(cfg.constantCount, 0.0)
      && Some(p.maxDegree as real) == cfg.tConstraintDegree
      && (cfg.extensionFactor.Some? ==> p.extensionFactor as real == cfg.extensionFactor.value)
      && (cfg.extensionFactor.None? ==> p.extensionFactor == CeilPow2(2 * p.maxDegree))
      && p.exeSpotCheckCount as real == OrDefault(cfg.exeSpotCheckCount, DEFAULT_EXE_SPOT_CHECK_COUNT as real)
      && p.friSpotCheckCount as real == OrDefault(cfg.friSpotCheckCount, DEFAULT_FRI_SPOT_CHECK_COUNT as real)
      && p.hashAlgorithm == HashOrDefault(cfg.hashAlgorithm)
    ensures r.Success? ==> WellFormed(r.value)
  {
    if c.None? then Failure(ConfigMissing)
    else
      var cfg := c.value;
      if cfg.field.None? then Failure(FieldMissing)
      else
        var constantCount := OrDefault(cfg.constantCount, 0.0);
        if !IntegerIn(constantCount, 0, MAX_CONSTANT_COUNT) then Failure(BadConstantCount)
        else if cfg.tConstraintDegree.None? || !IntegerIn(cfg.tConstraintDegree.value, 1, MAX_CONSTRAINT_DEGREE) then
          Failure(BadConstraintDegree)
        else
          var degree := cfg.tConstraintDegree.value.Floor;
          var extension :- ExtensionFactor(cfg.extensionFactor, degree);
          if cfg.tExpressions.None? then Failure(TransitionMissing)
          else
            var registerCount := |cfg.tExpressions.value|;
            if registerCount == 0 then Failure(NoRegisters)
            else if registerCount > MAX_REGISTER_COUNT then Failure(TooManyRegisters)
            else if cfg.tConstraints.None? then Failure(ConstraintsMissing)
            else
              var constraintCount := |cfg.tConstraints.value|;
              if constraintCount == 0 then Failure(NoConstraints)
              else if constraintCount > MAX_CONSTRAINT_COUNT then Failure(TooManyConstraints)
              else
                var exe := OrDefault(cfg.exeSpotCheckCount, DEFAULT_EXE_SPOT_CHECK_COUNT as real);
                if !IntegerIn(exe, 1, MAX_EXE_SPOT_CHECK_COUNT) then Failure(BadExeSpotCheckCount)
                else
                  var fri := OrDefault(cfg.friSpotCheckCount, DEFAULT_FRI_SPOT_CHECK_COUNT as real);
                  if !IntegerIn(fri, 1, MAX_FRI_SPOT_CHECK_COUNT) then Failure(BadFriSpotCheckCount)
                  else
                    var hash := HashOrDefault(cfg.hashAlgorithm);
                    if hash !in HASH_ALGORITHMS then Failure(UnsupportedHash(hash))
                    else
                      assert forall e :: !Violates(c, e);
                      Success(ParsedConfig(cfg.field.value, registerCount, constantCount.Floor, constraintCount,
                                           degree, extension, exe.Floor, fri.Floor, hash))
  }

  /** The extension factor: the default when absent, otherwise an integer in
      [2, 32], a power of two, and at least twice the degree, checked in
      that order. */
  function ExtensionFactor(x: Option<real>, degree: int): (r: Result<nat, ConfigError>)
    requires 1 <= degree <= MAX_CONSTRAINT_DEGREE
    ensures x.None? ==> r == Success(CeilPow2(2 * degree))
    ensures x.Some? ==> (r.Success? <==> && IntegerIn(x.value, 2, MAX_EXTENSION_FACTOR)
                                         && ModArith.IsPowerOf2(x.value.Floor)
                                         && x.value >= 2.0 * degree as real)
    ensures x.Some? && r.Success? ==> r.value as real == x.value
    ensures r == Failure(ExtensionFactorOutOfRange) <==> x.Some? && !IntegerIn(x.value, 2, MAX_EXTENSION_FACTOR)
    ensures r == Failure(ExtensionFactorNotPowerOf2) <==>
              x.Some? && IntegerIn(x.value, 2, MAX_EXTENSION_FACTOR) && !ModArith.IsPowerOf2(x.value.Floor)
    ensures r == Failure(ExtensionFactorTooSmall) <==>
              x.Some? && IntegerIn(x.value, 2, MAX_EXTENSION_FACTOR) && ModArith.IsPowerOf2(x.value.Floor)
              && x.value < 2.0 * degree as real
    ensures r.Success? ==>
      2 <= r.value <= MAX_EXTENSION_FACTOR && ModArith.IsPowerOf2(r.value) && r.value >= 2 * degree
  {
    if x.None? then
      CeilPow2Bounded(degree);
      Success(CeilPow2(2 * degree))
    else
      var e := x.value;
      if !IntegerIn(e, 2, MAX_EXTENSION_FACTOR) then Failure(ExtensionFactorOutOfRange)
      else if !ModArith.IsPowerOf2(e.Floor) then Failure(ExtensionFactorNotPowerOf2)
      else if e < 2.0 * degree as real then Failure(ExtensionFactorTooSmall)
      else Success(e.Floor)
  }

  /** What every accepted configuration satisfies. */
  predicate WellFormed<F>(p: ParsedConfig<F>)
  {
    && 1 <= p.registerCount <= MAX_REGISTER_COUNT
    && p.constantCount <= MAX_CONSTANT_COUNT
    && 1 <= p.constraintCount <= MAX_CONSTRAINT_COUNT
    && 1 <= p.maxDegree <= MAX_CONSTRAINT_DEGREE
    && 2 <= p.extensionFactor <= MAX_EXTENSION_FACTOR
    && ModArith.IsPowerOf2(p.extensionFactor)
    && p.extensionFactor >= 2 * p.maxDegree
    && 1 <= p.exeSpotCheckCount <= MAX_EXE_SPOT_CHECK_COUNT
    && 1 <= p.friSpotCheckCount <= MAX_FRI_SPOT_CHECK_COUNT
    && p.hashAlgorithm in HASH_ALGORITHMS
  }

  // ---------------------------------------------------------------------------
  // Properties

  lemma CeilPow2Bounded(degree: int)
    requires 1 <= degree <= MAX_CONSTRAINT_DEGREE
    ensures CeilPow2(2 * degree) <= MAX_EXTENSION_FACTOR
  {
    var e := CeilPow2(2 * degree);
    if e > MAX_EXTENSION_FACTOR {
      PowerOf2Above(e, 2 * degree, 32);
    }
  }

  /** For every valid degree the default extension factor also passes the
      checks an explicit extension factor must pass. */
  lemma DefaultExtensionFactorIsValid(degree: int)
    requires 1 <= degree <= MAX_CONSTRAINT_DEGREE
    ensures var e := CeilPow2(2 * degree);
            ExtensionFactor(Some(e as real), degree) == Success(e)
  {
    var e := CeilPow2(2 * degree);
    CeilPow2Bounded(degree);
    assert (e as real).Floor == e;
  }

  /** A power of two below twice `n` that is at least `n` is bounded by any
      power of two that is at least `n`. */
  lemma PowerOf2Above(e: nat, n: int, bound: nat)
    requires ModArith.IsPowerOf2(e) && e >= n && e < 2 * n && ModArith.IsPowerOf2(bound) && bound >= n
    ensures e <= bound
  {
    if e > bound {
      PowerOf2Divides(bound, e);
    }
  }

  /** Of two powers of two the smaller divides the larger, so a larger one is
      at least twice the smaller. */
  lemma PowerOf2Divides(a: nat, b: nat)
    requires ModArith.IsPowerOf2(a) && ModArith.IsPowerOf2(b) && a < b
    ensures 2 * a <= b
  {
    if a > 1 {
      PowerOf2Divides(a / 2, b / 2);
    }
  }

  /** The configuration that states every accepted value explicitly. */
  function Explicit<F>(p: ParsedConfig<F>, exprs: map<string, string>, constraints: seq<string>): StarkConfig<F>
  {
    StarkConfig(Some(p.field), Some(p.constantCount as real), Some(p.maxDegree as real),
                Some(p.extensionFactor as real), Some(exprs), Some(constraints),
                Some(p.exeSpotCheckCount as real), Some(p.friSpotCheckCount as real), Some(p.hashAlgorithm))
  }

  /** Parsing is idempotent: writing an accepted configuration's values out
      explicitly and parsing again gives back the same configuration. */
  lemma ReparseIsIdentity<F>(c: StarkConfig<F>)
    requires ParseStarkConfig(Some(c)).Success?
    ensures var p := ParseStarkConfig(Some(c)).value;
            ParseStarkConfig(Some(Explicit(p, c.tExpressions.value, c.tConstraints.value))) == Success(p)
  {
    var p := ParseStarkConfig(Some(c)).value;
    var c' := Explicit(p, c.tExpressions.value, c.tConstraints.value);
    assert (p.constantCount as real).Floor == p.constantCount;
    assert (p.maxDegree as real).Floor == p.maxDegree;
    assert (p.extensionFactor as real).Floor == p.extensionFactor;
    assert (p.exeSpotCheckCount as real).Floor == p.exeSpotCheckCount;
    assert (p.friSpotCheckCount as real).Floor == p.friSpotCheckCount;
    if c.extensionFactor.None? {
      DefaultExtensionFactorIsValid(p.maxDegree);
    }
  }
}

=== FILE: Fibonacci.dfy ===
/** The Fibonacci example: a two-register transition that advances the
    Fibonacci sequence by two values per step, the two transition
    constraints that check it, and the boundary assertions of the example,
    all over the prime field of modulus 2^32 - 3 * 2^25 + 1. */
module Fibonacci {
  import opened Results
  import ModArith
  import TraceBuilder

  const MODULUS: int := 4194304001

  predicate IsElement(x: int)
  {
    0 <= x < MODULUS
  }

  function Add(a: int, b: int): int
  {
    (a + b) % MODULUS
  }

  function Sub(a: int, b: int): int
  {
    (a - b) % MODULUS
  }

  /** The Fibonacci numbers, with Fib(1) == Fib(2) == 1. */
  function Fib(n: nat): nat
  {
    if n < 2 then n else Fib(n - 1) + Fib(n - 2)
  }

  // ---------------------------------------------------------------------------
  // fibTransition, fibConstraint1, fibConstraint2

  /** Registers (v0, v1) become (v0 + v1, v1 + (v0 + v1)). */
  function FibTransition(cur: seq<int>): (next: seq<int>)
    requires |cur| == 2
    ensures |next| == 2 && IsElement(next[0]) && IsElement(next[1])
  {
    var v2 := Add(cur[0], cur[1]);
    var v3 := Add(cur[1], v2);
    [v2, v3]
  }

  /** Checks that register 0 was updated correctly. */
  function FibConstraint1(cur: seq<int>, next: seq<int>): int
    requires |cur| == 2 && |next| == 2
  {
    Sub(next[0], Add(cur[0], cur[1]))
  }

  /** Checks that register 1 was updated correctly. */
  function FibConstraint2(cur: seq<int>, next: seq<int>): int
    requires |cur| == 2 && |next| == 2
  {
    var v2 := Add(cur[0], cur[1]);
    Sub(next[1], Add(cur[1], v2))
  }

  /** A field difference is zero exactly when the two elements are equal. */
  lemma SubZero(a: int, b: int)
    requires IsElement(a) && IsElement(b)
    ensures Sub(a, b) == 0 <==> a == b
  {
    if Sub(a, b) == 0 {
      assert a - b == MODULUS * ((a - b) / MODULUS);
      ModArith.MulSmall((a - b) / MODULUS, MODULUS);
    }
  }

  /** The first constraint vanishes exactly when register 0 holds
      `v0 + v1`, so it catches every wrong register-0 update. */
  lemma Constraint1Vanishes(cur: seq<int>, next: seq<int>)
    requires |cur| == 2 && |next| == 2 && IsElement(next[0])
    ensures FibConstraint1(cur, next) == 0 <==> next[0] == (cur[0] + cur[1]) % MODULUS
  {
    SubZero(next[0], Add(cur[0], cur[1]));
  }

  /** The second constraint vanishes exactly when register 1 holds
      `v0 + 2 * v1`. */
  lemma Constraint2Vanishes(cur: seq<int>, next: seq<int>)
    requires |cur| == 2 && |next| == 2 && IsElement(next[1])
    ensures FibConstraint2(cur, next) == 0 <==> next[1] == (cur[0] + 2 * cur[1]) % MODULUS
  {
    var v2 := Add(cur[0], cur[1]);
    SubZero(next[1], Add(cur[1], v2));
    ModArith.ModAdd(cur[1], cur[0] + cur[1], MODULUS);
    ModArith.ModOfReduced(cur[1] % MODULUS, MODULUS);
    ModArith.ModAdd(cur[1], v2, MODULUS);
  }

  /** Both constraints vanish on every honest transition. */
  lemma ConstraintsVanishOnTransition(cur: seq<int>)
    requires |cur| == 2
    ensures FibConstraint1(cur, FibTransition(cur)) == 0
    ensures FibConstraint2(cur, FibTransition(cur)) == 0
  {
    var next := FibTransition(cur);
    SubZero(next[0], Add(cur[0], cur[1]));
    SubZero(next[1], Add(cur[1], Add(cur[0], cur[1])));
  }

  // ---------------------------------------------------------------------------
  // Advancing by two Fibonacci numbers per step

  /** `k` transitions starting from `(1, 1)`. */
  function Run(k: nat): (s: seq<int>)
    ensures |s| == 2
  {
    if k == 0 then [1, 1] else FibTransition(Run(k - 1))
  }

  /** Each step advances the sequence by two values: after `k` steps the
      registers hold Fib(2k + 1) and Fib(2k + 2), reduced. */
  lemma {:induction false} RunIsFibonacci(k: nat)
    ensures Run(k) == [Fib(2 * k + 1) % MODULUS, Fib(2 * k + 2) % MODULUS]
  {
    if k == 0 {
      assert Fib(1) == 1 && Fib(2) == 1;
    } else {
      RunIsFibonacci(k - 1);
      var a, b := Fib(2 * k - 1), Fib(2 * k);
      assert 2 * (k - 1) + 1 == 2 * k - 1 && 2 * (k - 1) + 2 == 2 * k;
      assert Run(k - 1) == [a % MODULUS, b % MODULUS];
      assert Fib(2 * k + 1) == a + b;
      assert Fib(2 * k + 2) == b + (a + b);
      TransitionOfReduced(a, b);
    }
  }

  /** One transition from reduced values adds them before reducing. */
  lemma TransitionOfReduced(a: int, b: int)
    ensures FibTransition([a % MODULUS, b % MODULUS]) == [(a + b) % MODULUS, (b + (a + b)) % MODULUS]
  {
    ModArith.ModAdd(a, b, MODULUS);
    ModArith.ModAdd(b, a + b, MODULUS);
    ModArith.ModOfReduced((a + b) % MODULUS, MODULUS);
  }

  // ---------------------------------------------------------------------------
  // The example run through the trace builder

  /** The transition as a compiled evaluator over two registers. */
  function Evaluator(cur: seq<int>, k: seq<int>, c: seq<int>): Result<seq<int>, string>
  {
    if |cur| == 2 then Success(FibTransition(cur)) else Failure("frame has no register 1")
  }

  function FibBuilder(): TraceBuilder.Builder
  {
    TraceBuilder.Builder(2, Evaluator, [])
  }

  /** The example's inputs: steps 0 and 1 of the sequence are 1. */
  const INPUTS: seq<seq<int>> := [[1], [1]]

  lemma EvaluatorKeepsWidth()
    ensures TraceBuilder.KeepsWidth(Evaluator, 2)
  {
  }

  /** In a trace built from the example's inputs, with no round start inside
      the trace, step `s` holds Fib(2s + 1) and Fib(2s + 2). */
  lemma {:induction false} TraceIsFibonacci(ctx: TraceBuilder.Context, ks: seq<TraceBuilder.ReadonlyRegister>,
                                            t: TraceBuilder.Trace, s: nat)
    requires ctx.roundSteps == 0 || ctx.roundSteps >= TraceBuilder.RowLength(ctx)
    requires TraceBuilder.IsTraceOf(FibBuilder(), ctx, INPUTS, ks, t)
    requires s < TraceBuilder.RowLength(ctx)
    ensures TraceBuilder.Column(t, s) == Run(s)
  {
    if s == 0 {
      assert TraceBuilder.Column(t, 0) == [t[0][0], t[1][0]];
    } else {
      TraceIsFibonacci(ctx, ks, t, s - 1);
      assert TraceBuilder.StepHolds(FibBuilder(), ctx, INPUTS, ks, t, s - 1);
      assert !TraceBuilder.IsRoundStart(ctx, s) by {
        if ctx.roundSteps != 0 {
          ModArith.DivModUnique(s, 0, s, ctx.roundSteps);
        }
      }
      assert TraceBuilder.Column(t, s) == [t[0][s], t[1][s]];
    }
  }

  /** The example's assertions: both registers are 1 at step 0, and
      register 1 holds `result` at the last step. */
  function Assertions(steps: int, result: int): seq<TraceBuilder.Assertion>
  {
    [TraceBuilder.Assertion(0, 0, 1), TraceBuilder.Assertion(1, 0, 1), TraceBuilder.Assertion(1, steps - 1, result)]
  }

  /** On the example's trace the step-0 assertions always hold, and all
      three assertions pass exactly when `result` is Fib(2 * steps) reduced. */
  lemma ExampleAssertions(ctx: TraceBuilder.Context, ks: seq<TraceBuilder.ReadonlyRegister>,
                          t: TraceBuilder.Trace, result: int)
    requires ctx.totalSteps >= 1
    requires ctx.roundSteps == 0 || ctx.roundSteps >= ctx.totalSteps
    requires TraceBuilder.IsTraceOf(FibBuilder(), ctx, INPUTS, ks, t)
    ensures TraceBuilder.ValidateAssertions(t, Assertions(ctx.totalSteps, 1)[..2]) == Pass
    ensures TraceBuilder.ValidateAssertions(t, Assertions(ctx.totalSteps, result)) == Pass
            <==> result == Fib(2 * ctx.totalSteps) % MODULUS
  {
    var last := ctx.totalSteps - 1;
    TraceIsFibonacci(ctx, ks, t, 0);
    TraceIsFibonacci(ctx, ks, t, last);
    RunIsFibonacci(last);
    assert t[0][0] == TraceBuilder.Column(t, 0)[0] && t[1][0] == TraceBuilder.Column(t, 0)[1];
    assert t[1][last] == TraceBuilder.Column(t, last)[1];
    assert 2 * last + 2 == 2 * ctx.totalSteps;
    var as_ := Assertions(ctx.totalSteps, result);
    assert TraceBuilder.Holds(t, as_[0]) && TraceBuilder.Holds(t, as_[1]);
    assert TraceBuilder.Holds(t, as_[2]) <==> t[1][last] == result;
  }
}

=== FILE: Lib128.dfy ===
/** The bit-decomposition helper of the 128-bit assembly examples: an index
    written as a little-endian array of bits, and the one-place shift that
    aligns those bits with the end of the first loop of the Merkle-path
    computation. */
module Lib128 {
  import ModArith

  /** `v.toString(2)` as digits, most significant first; zero is "0". */
  function BinText(v: nat): (t: seq<nat>)
    ensures |t| >= 1
    ensures forall i :: 0 <= i < |t| ==> t[i] <= 1
  {
    if v < 2 then [v] else BinText(v / 2) + [v % 2]
  }

  function Max(a: nat, b: nat): nat
  {
    if a >= b then a else b
  }

  /** The value of a little-endian bit array: entry `j` weighs `2^j`. */
  function Weighted(bits: seq<int>): int
  {
    if |bits| == 0 then 0 else bits[0] + 2 * Weighted(bits[1..])
  }

  /** Bit `j` of `v`. */
  function Bit(v: nat, j: nat): nat
  {
    (v / ModArith.Pow2(j)) % 2
  }

  // ---------------------------------------------------------------------------
  // toBinaryArray

  /** `toBinaryArray(value, length)`: an array of `length` zeros whose first
      entries are overwritten with the binary digits of `value`, least
      significant first. The array grows when `value` needs more than
      `length` digits, so `toBinaryArray(0, 0)` is one entry long. */
  function ToBinaryArray(value: nat, length: nat): (r: seq<int>)
    ensures |r| == Max(length, |BinText(value)|)
    ensures forall j :: 0 <= j < |r| ==> r[j] == Bit(value, j)
    ensures forall j :: 0 <= j < |r| ==> r[j] == 0 || r[j] == 1
    ensures value < ModArith.Pow2(length) && length >= 1 ==> |r| == length
    ensures Weighted(r) == value
  {
    var t := BinText(value);
    var r := seq(Max(length, |t|), j requires 0 <= j < Max(length, |t|) =>
               if j < |t| then t[|t| - 1 - j] else 0);
    assert forall j :: 0 <= j < |r| ==> r[j] == Bit(value, j) by {
      BinTextBits(value);
      BinTextLength(value);
      forall j | |t| <= j < |r|
        ensures r[j] == Bit(value, j)
      {
        BitsAboveLength(value, |t|, j);
      }
    }
    assert value < ModArith.Pow2(length) && length >= 1 ==> |r| == length by {
      if value < ModArith.Pow2(length) && length >= 1 {
        ShortEnough(value, length);
      }
    }
    assert Weighted(r) == value by {
      BinTextLength(value);
      Pow2Monotone(|t|, |r|);
      WeightedOfBits(r, value);
    }
    r
  }

  /** Reading `BinText` from the end gives the bits of `v`. */
  lemma {:induction false} BinTextBits(v: nat)
    ensures var t := BinText(v);
            forall j :: 0 <= j < |t| ==> t[|t| - 1 - j] == Bit(v, j)
  {
    var t := BinText(v);
    if v >= 2 {
      BinTextBits(v / 2);
      var u := BinText(v / 2);
      assert t == u + [v % 2];
      forall j | 0 <= j < |t|
        ensures t[|t| - 1 - j] == Bit(v, j)
      {
        if j > 0 {
          assert t[|t| - 1 - j] == u[|u| - 1 - (j - 1)];
          HalfBit(v, j - 1);
        }
      }
    } else {
      assert Bit(v, 0) == v;
    }
  }

  /** Bit `j + 1` of `v` is bit `j` of `v / 2`. */
  lemma HalfBit(v: nat, j: nat)
    ensures Bit(v, j + 1) == Bit(v / 2, j)
  {
    ModArith.DivDiv(v, 2, ModArith.Pow2(j));
  }

  /** `v` is below `2^|BinText(v)|`, and at least `2^(|BinText(v)| - 1)`
      when it is not zero. */
  lemma {:induction false} BinTextLength(v: nat)
    ensures v < ModArith.Pow2(|BinText(v)|)
    ensures v >= 1 ==> v >= ModArith.Pow2(|BinText(v)| - 1)
  {
    if v >= 2 {
      BinTextLength(v / 2);
    }
  }

  lemma {:induction false} BitsAboveLength(v: nat, n: nat, j: nat)
    requires v < ModArith.Pow2(n) && n <= j
    ensures Bit(v, j) == 0
  {
    Pow2Monotone(n, j);
    ModArith.DivModUnique(v, 0, v, ModArith.Pow2(j));
  }

  lemma {:induction false} Pow2Monotone(a: nat, b: nat)
    requires a <= b
    ensures ModArith.Pow2(a) <= ModArith.Pow2(b)
  {
    if a < b {
      Pow2Monotone(a, b - 1);
    }
  }

  /** A value below `2^length` needs at most `length` digits, except zero,
      which is written with one digit. */
  lemma ShortEnough(value: nat, length: nat)
    requires value < ModArith.Pow2(length) && length >= 1
    ensures |BinText(value)| <= length
  {
    BinTextLength(value);
    if value >= 1 && |BinText(value)| > length {
      Pow2Monotone(length, |BinText(value)| - 1);
    }
  }

  /** An array holding the bits of `v`, long enough for all of them, weighs
      `v`. */
  lemma {:induction false} WeightedOfBits(r: seq<int>, v: nat)
    requires forall j :: 0 <= j < |r| ==> r[j] == Bit(v, j)
    requires v < ModArith.Pow2(|r|)
    ensures Weighted(r) == v
  {
    if |r| > 0 {
      forall j | 0 <= j < |r| - 1
        ensures r[1..][j] == Bit(v / 2, j)
      {
        HalfBit(v, j);
      }
      WeightedOfBits(r[1..], v / 2);
      assert Bit(v, 0) == v % 2;
    }
  }

  // ---------------------------------------------------------------------------
  // unshift(0) followed by pop()

  /** Puts a 0 in front and drops the last entry. */
  function AlignToLoopEnd(bits: seq<int>): (r: seq<int>)
    ensures |r| == |bits|
    ensures |r| > 0 ==> r[0] == 0
    ensures forall j :: 0 <= j < |bits| - 1 ==> r[j + 1] == bits[j]
  {
    if |bits| == 0 then [] else [0] + bits[..|bits| - 1]
  }

  /** The shifted array weighs twice what the original weighs without its
      top bit. */
  lemma AlignedWeight(bits: seq<int>)
    requires |bits| > 0
    ensures Weighted(AlignToLoopEnd(bits)) == 2 * Weighted(bits[..|bits| - 1])
  {
    assert AlignToLoopEnd(bits)[1..] == bits[..|bits| - 1];
  }

  /** For the bits of an index, the shift doubles the index with its top bit
      dropped: bit `j + 1` of the result is bit `j` of the index. */
  lemma AlignedIndex(index: nat, length: nat)
    requires 1 <= length && index < ModArith.Pow2(length)
    ensures var r := AlignToLoopEnd(ToBinaryArray(index, length));
            |r| == length && r[0] == 0 &&
            forall j :: 0 <= j < length - 1 ==> r[j + 1] == Bit(index, j)
  {
  }

  /** The Merkle-path example: index 42 in a tree of depth 8. */
  lemma IndexFortyTwo()
    ensures ToBinaryArray(42, 8) == [0, 1, 0, 1, 0, 1, 0, 0]
    ensures AlignToLoopEnd(ToBinaryArray(42, 8)) == [0, 0, 1, 0, 1, 0, 1, 0]
  {
    BinaryFortyTwo();
    assert [0, 1, 0, 1, 0, 1, 0, 0][..7] == [0, 1, 0, 1, 0, 1, 0];
  }

  lemma BinaryFortyTwo()
    ensures ToBinaryArray(42, 8) == [0, 1, 0, 1, 0, 1, 0, 0]
  {
    var r := ToBinaryArray(42, 8);
    assert |r| == 8 by {
      assert ModArith.Pow2(8) == 256;
    }
    BitsOfFortyTwo();
    assert r[0] == Bit(42, 0) && r[1] == Bit(42, 1) && r[2] == Bit(42, 2) && r[3] == Bit(42, 3);
    assert r[4] == Bit(42, 4) && r[5] == Bit(42, 5) && r[6] == Bit(42, 6) && r[7] == Bit(42, 7);
  }

  lemma BitsOfFortyTwo()
    ensures Bit(42, 0) == 0 && Bit(42, 1) == 1 && Bit(42, 2) == 0 && Bit(42, 3) == 1
    ensures Bit(42, 4) == 0 && Bit(42, 5) == 1 && Bit(42, 6) == 0 && Bit(42, 7) == 0
  {
    assert ModArith.Pow2(7) == 128;
  }
}

=== FILE: LowDegreeProver.dfy ===
/** The FRI low-degree prover and verifier, in its quartic-folding variant
    made non-interactive with the Fiat-Shamir transform: the prover folds
    the evaluations four rows at a time into a column a quarter as long,
    commits to it, and recurses until at most 256 values are left, which it
    sends in the clear; the verifier replays the folding at pseudo-random
    positions and checks the final remainder directly. */
module LowDegreeProver {
  import opened Results
  import ModArith
  import opened Primitives

  /** Above this many values the prover folds once more. */
  const REMAINDER_LIMIT: nat := 256

  /** One folding round: the column's root, the opened column values and the
      opened values of the polynomial the column was folded from. */
  datatype FriComponent = FriComponent(columnRoot: Digest, columnProof: BatchProof, polyProof: BatchProof)

  /** `components[d]` belongs to depth `d`; the remainder is the last column
      in the clear. */
  datatype LowDegreeProof = LowDegreeProof(components: seq<FriComponent>, remainder: seq<int>)

  datatype LdError =
    /** `new Array(n)` with a negative length when sizing the component
        list. */
    | InvalidArrayLength
    /** The remainder has fewer selected points than the degree bound asks
        to interpolate. */
    | RemainderTooFewPoints(maxDegreePlus1: nat, selected: nat)
    /** Some selected remainder point lies off the interpolated polynomial. */
    | RemainderNotLowDegree(degree: int)
    | ColumnProofFailed(depth: nat)
    | PolyProofFailed(depth: nat)
    | EvalMismatch(depth: nat)
    | RemainderDegreeTooHigh(maxDegreePlus1: nat, remainderLength: nat)
    | RemainderRootMismatch

  /** The three failures that name a depth. */
  predicate IsDepthError(e: LdError)
  {
    e.ColumnProofFailed? || e.PolyProofFailed? || e.EvalMismatch?
  }

  function DepthOf(e: LdError): nat
    requires IsDepthError(e)
  {
    match e
    case ColumnProofFailed(d) => d
    case PolyProofFailed(d) => d
    case EvalMismatch(d) => d
  }

  // ---------------------------------------------------------------------------
  // computeRootOfUnityDegree

  /** `d` is `2^k` for the least `k` at which squaring `rou` `k` times gives
      one. */
  ghost predicate IsDegree(p: int, rou: int, d: int)
    requires p > 1
  {
    exists k: nat :: d == ModArith.Pow2(k) && LeastSquaringToOne(p, rou, k)
  }

  ghost predicate LeastSquaringToOne(p: int, rou: int, k: nat)
    requires p > 1
  {
    ModArith.Squared(rou, k, p) == 1 && forall j: nat :: j < k ==> ModArith.Squared(rou, j, p) != 1
  }

  /** Squares `rou` until it reaches one, doubling the result each time. The
      loop ends only when the order of `rou` is a power of two, which the
      precondition states. */
  method RootOfUnityDegree(p: int, rou: int) returns (r: nat)
    requires p > 1 && 0 <= rou < p
    requires exists k: nat :: ModArith.Squared(rou, k, p) == 1
    ensures IsDegree(p, rou, r)
    ensures ModArith.Exp(rou, r, p) == 1
    ensures r >= 2 ==> ModArith.Exp(rou, r / 2, p) != 1
  {
    ghost var bound: nat :| ModArith.Squared(rou, bound, p) == 1;
    ghost var k: nat := 0;
    var x := rou;
    r := 1;
    while x != 1
      invariant x == ModArith.Squared(rou, k, p) && r == ModArith.Pow2(k) && k <= bound
      invariant forall j: nat :: j < k ==> ModArith.Squared(rou, j, p) != 1
      decreases bound - k
    {
      r := r * 2;
      x := ModArith.Mul(x, x, p);
      k := k + 1;
    }
    assert LeastSquaringToOne(p, rou, k);
    ModArith.SquaredIsExp(rou, k, p);
    if k >= 1 {
      ModArith.SquaredIsExp(rou, k - 1, p);
    }
  }

  /** The degree is unique. */
  lemma DegreeUnique(p: int, rou: int, d1: int, d2: int)
    requires p > 1 && IsDegree(p, rou, d1) && IsDegree(p, rou, d2)
    ensures d1 == d2
  {
    var k1: nat :| d1 == ModArith.Pow2(k1) && LeastSquaringToOne(p, rou, k1);
    var k2: nat :| d2 == ModArith.Pow2(k2) && LeastSquaringToOne(p, rou, k2);
    assert k1 == k2;
  }

  // ---------------------------------------------------------------------------
  // Positions and quartic roots of unity

  /** Each column position `q` stands for the four positions `q`, `q + L`,
      `q + 2L` and `q + 3L` of the polynomial, at slots `4i` to `4i + 3`. */
  function Expand(positions: seq<nat>, columnLength: nat): (r: seq<nat>)
    ensures |r| == 4 * |positions|
  {
    seq(4 * |positions|, j requires 0 <= j < 4 * |positions| => positions[j / 4] + (j % 4) * columnLength)
  }

  /** Slot `4i + k` of the expansion holds the `k`-th copy of position `i`:
      dividing by the column length gives back `k` and the position. So the
      expanded positions are pairwise distinct when the column positions are,
      and all lie below four column lengths. */
  lemma ExpandDecodes(positions: seq<nat>, columnLength: nat, i: nat, k: nat)
    requires i < |positions| && k < 4 && positions[i] < columnLength
    ensures 4 * i + k < |Expand(positions, columnLength)|
    ensures var e := Expand(positions, columnLength)[4 * i + k];
            e / columnLength == k && e % columnLength == positions[i] && e < 4 * columnLength
  {
    ModArith.DivModUnique(4 * i + k, i, k, 4);
    var e := positions[i] + k * columnLength;
    ModArith.DivModUnique(e, k, positions[i], columnLength);
  }

  /** The prover's rows and the verifier's expansion agree: for a column of
      length `L` folded from `4L` values, slot `4i + k` of the expanded
      positions opens entry `k` of the row at column position `i`. */
  lemma RowsFollowExpansion(values: seq<int>, positions: seq<nat>)
    requires |values| % 4 == 0
    requires forall i :: 0 <= i < |positions| ==> positions[i] < |values| / 4
    ensures forall j :: 0 <= j < 4 * |positions| ==> Expand(positions, |values| / 4)[j] < |values|
    ensures forall i, k :: 0 <= i < |positions| && 0 <= k < 4 ==>
              ToRows(values, 1)[positions[i]][k] == values[Expand(positions, |values| / 4)[4 * i + k]]
  {
    var L := |values| / 4;
    forall j | 0 <= j < 4 * |positions|
      ensures Expand(positions, L)[j] < |values|
    {
      ExpandDecodes(positions, L, j / 4, j % 4);
    }
    forall i, k | 0 <= i < |positions| && 0 <= k < 4
      ensures ToRows(values, 1)[positions[i]][k] == values[Expand(positions, L)[4 * i + k]]
    {
      ExpandDecodes(positions, L, i, k);
      RowEntry(values, 1, positions[i], k);
      assert Expand(positions, L)[4 * i + k] == positions[i] + k * L;
    }
  }

  lemma ExpandDistinct(positions: seq<nat>, columnLength: nat)
    requires forall i :: 0 <= i < |positions| ==> positions[i] < columnLength
    requires forall i, j :: 0 <= i < j < |positions| ==> positions[i] != positions[j]
    ensures var r := Expand(positions, columnLength);
            forall a, b :: 0 <= a < b < |r| ==> r[a] != r[b]
    ensures var r := Expand(positions, columnLength);
            forall a :: 0 <= a < |r| ==> r[a] < 4 * columnLength
  {
    var r := Expand(positions, columnLength);
    forall a | 0 <= a < |r|
      ensures r[a] < 4 * columnLength
      ensures r[a] / columnLength == a % 4 && r[a] % columnLength == positions[a / 4]
    {
      ExpandDecodes(positions, columnLength, a / 4, a % 4);
    }
    forall a, b | 0 <= a < b < |r|
      ensures r[a] != r[b]
    {
      if a / 4 == b / 4 {
        assert a % 4 != b % 4;
      }
    }
  }

  /** `[1, rou^(d/4), rou^(d/2), rou^(3d/4)]` with floor division. */
  function QuarticRoots(rou: int, degree: nat, p: int): (q: seq<int>)
    requires p > 1
    ensures |q| == 4
  {
    [1, ModArith.Exp(rou, degree / 4, p), ModArith.Exp(rou, degree / 2, p), ModArith.Exp(rou, degree * 3 / 4, p)]
  }

  /** With `4 | degree`, multiplying the `k`-th quartic root by a power of
      `rou^step` gives the power of `rou` at the `k`-th copy of that position:
      the four x-coordinates the verifier builds are the domain points of the
      four expanded positions. */
  lemma QuarticRootIdentity(rou: int, degree: nat, step: nat, position: nat, k: nat, p: int)
    requires p > 1 && degree % 4 == 0 && k < 4
    ensures ModArith.Mul(QuarticRoots(rou, degree, p)[k], ModArith.Exp(ModArith.Exp(rou, step, p), position, p), p)
            == ModArith.Exp(rou, step * position + k * (degree / 4), p)
  {
    var q := QuarticRoots(rou, degree, p);
    ModArith.ExpExp(rou, step, position, p);
    assert q[k] == ModArith.Exp(rou, k * (degree / 4), p) by {
      if k == 0 {
        ModArith.ExpZero(rou, p);
      } else if k == 2 {
        assert degree / 2 == 2 * (degree / 4);
      } else if k == 3 {
        assert degree * 3 / 4 == 3 * (degree / 4);
      }
    }
    ModArith.ExpAdd(rou, k * (degree / 4), step * position, p);
  }

  // ---------------------------------------------------------------------------
  // verifyRemainder

  /** Position `i` of the remainder takes part in the check: every position
      when the extension factor is unset, else those off its multiples. */
  predicate Selected(extensionFactor: nat, i: nat)
  {
    extensionFactor == 0 || i % extensionFactor != 0
  }

  /** The selected positions below `n`, in increasing order. */
  function RemainderPositions(n: nat, extensionFactor: nat): (ps: seq<nat>)
    ensures |ps| <= n
    ensures forall i :: 0 <= i < |ps| ==> ps[i] < n && Selected(extensionFactor, ps[i])
    ensures forall i, j :: 0 <= i < j < |ps| ==> ps[i] < ps[j]
    ensures forall x: nat :: x < n && Selected(extensionFactor, x) ==> x in ps
  {
    if n == 0 then []
    else RemainderPositions(n - 1, extensionFactor) + (if Selected(extensionFactor, n - 1) then [n - 1] else [])
  }

  /** The polynomial through the first `count` selected points. */
  function RemainderPoly(b: Backend, remainder: seq<int>, count: nat, rou: int): Poly
    requires b.p > 1
    requires count <= |RemainderPositions(|remainder|, b.extensionFactor)|
  {
    var ps := RemainderPositions(|remainder|, b.extensionFactor);
    var domain := PowerSeries(rou, |remainder|, b.p);
    b.interpolate(seq(count, i requires 0 <= i < count => domain[ps[i]]),
                  seq(count, i requires 0 <= i < count => remainder[ps[i]]))
  }

  /** The selected points from index `from` on all lie on `poly`. */
  function PointsOnPoly(b: Backend, poly: Poly, rou: int, remainder: seq<int>, ps: seq<nat>, from: nat): (ok: bool)
    requires b.p > 1 && forall i :: 0 <= i < |ps| ==> ps[i] < |remainder|
    ensures ok <==> forall i :: from <= i < |ps| ==>
                      b.evalPolyAt(poly, ModArith.Exp(rou, ps[i], b.p)) == remainder[ps[i]]
    decreases |ps| - from
  {
    if from >= |ps| then true
    else b.evalPolyAt(poly, ModArith.Exp(rou, ps[from], b.p)) == remainder[ps[from]]
         && PointsOnPoly(b, poly, rou, remainder, ps, from + 1)
  }

  /** Interpolates the first `maxDegreePlus1` selected points over the powers
      of `rou` and checks every later selected point against the result. */
  function VerifyRemainder(b: Backend, remainder: seq<int>, maxDegreePlus1: nat, rou: int): (r: Outcome<LdError>)
    requires b.p > 1
    ensures r.Pass? ==> maxDegreePlus1 <= |remainder|
    ensures r.Fail? ==> r.error.RemainderTooFewPoints? || r.error == RemainderNotLowDegree(maxDegreePlus1 - 1)
  {
    var ps := RemainderPositions(|remainder|, b.extensionFactor);
    if maxDegreePlus1 > |ps| then Fail(RemainderTooFewPoints(maxDegreePlus1, |ps|))
    else
      var poly := RemainderPoly(b, remainder, maxDegreePlus1, rou);
      if PointsOnPoly(b, poly, rou, remainder, ps, maxDegreePlus1) then Pass
      else Fail(RemainderNotLowDegree(maxDegreePlus1 - 1))
  }

  /** The remainder passes exactly when there are enough selected points and
      every selected point after the interpolated ones lies on the
      interpolated polynomial. */
  lemma VerifyRemainderMeaning(b: Backend, remainder: seq<int>, maxDegreePlus1: nat, rou: int)
    requires b.p > 1
    ensures var ps := RemainderPositions(|remainder|, b.extensionFactor);
            VerifyRemainder(b, remainder, maxDegreePlus1, rou).Pass? <==> (maxDegreePlus1 <= |ps| &&
              forall i :: maxDegreePlus1 <= i < |ps| ==>
                b.evalPolyAt(RemainderPoly(b, remainder, maxDegreePlus1, rou), ModArith.Exp(rou, ps[i], b.p))
                == remainder[ps[i]])
  {
  }

  // ---------------------------------------------------------------------------
  // verify

  /** The verifier's running parameters: the root the next opening must
      match, the root of unity of the current domain, the degree bound and
      the domain size. */
  datatype Schedule = Schedule(lRoot: Digest, rou: int, maxDegreePlus1: nat, rouDegree: nat)

  /** The parameters for the next depth. */
  function Next(s: Schedule, columnRoot: Digest, p: int): Schedule
    requires p > 1
  {
    Schedule(columnRoot, ModArith.Exp(s.rou, 4, p), s.maxDegreePlus1 / 4, s.rouDegree / 4)
  }

  /** The four x-coordinates the verifier assigns to a column position. */
  function PointXs(quartic: seq<int>, rou: int, position: nat, p: int): (xs: seq<int>)
    requires p > 1 && |quartic| == 4
    ensures |xs| == 4
  {
    var xe := ModArith.Exp(rou, position, p);
    seq(4, k requires 0 <= k < 4 => ModArith.Mul(quartic[k], xe, p))
  }

  /** The row polynomials rebuilt from an opening of the polynomial tree. */
  function RowPolys(b: Backend, quartic: seq<int>, rou: int, positions: seq<nat>, polyValues: seq<int>): (polys: seq<Poly>)
    requires b.p > 1 && |quartic| == 4 && |polyValues| == 4 * |positions|
    ensures |polys| == |positions|
  {
    seq(|positions|, i requires 0 <= i < |positions| =>
      b.interpolateQuartic(PointXs(quartic, rou, positions[i], b.p), polyValues[4 * i .. 4 * i + 4]))
  }

  /** Every row polynomial from index `from` on evaluates at `x` to the
      opened column value of its row. */
  function RowsMatchColumn(b: Backend, polys: seq<Poly>, x: int, column: seq<int>, from: nat): (ok: bool)
    requires |column| == |polys|
    ensures ok <==> forall i :: from <= i < |polys| ==> b.evalPolyAt(polys[i], x) == column[i]
    decreases |polys| - from
  {
    if from >= |polys| then true
    else b.evalPolyAt(polys[from], x) == column[from] && RowsMatchColumn(b, polys, x, column, from + 1)
  }

  /** The positions the verifier queries for a component. */
  function QueryPositions(b: Backend, c: FriComponent, s: Schedule): seq<nat>
  {
    b.getFriIndexes(c.columnRoot, s.rouDegree / 4)
  }

  /** A component is accepted: both openings verify and every rebuilt row
      polynomial meets the column at the challenge point. */
  ghost predicate ComponentValid(b: Backend, quartic: seq<int>, c: FriComponent, s: Schedule)
    requires Valid(b) && |quartic| == 4
  {
    var ps := QueryPositions(b, c, s);
    && b.verifyBatch(c.columnRoot, ps, c.columnProof)
    && b.verifyBatch(s.lRoot, Expand(ps, s.rouDegree / 4), c.polyProof)
    && var polys := RowPolys(b, quartic, s.rou, ps, c.polyProof.values);
       forall i :: 0 <= i < |ps| ==> b.evalPolyAt(polys[i], b.prng(s.lRoot)) == c.columnProof.values[i]
  }

  /** The checks of one depth, in the order they throw. */
  function CheckComponent(b: Backend, quartic: seq<int>, c: FriComponent, depth: nat, s: Schedule): (r: Outcome<LdError>)
    requires Valid(b) && |quartic| == 4
    ensures r.Pass? <==> ComponentValid(b, quartic, c, s)
    ensures r.Fail? ==> IsDepthError(r.error) && DepthOf(r.error) == depth
    ensures r == Fail(ColumnProofFailed(depth)) <==>
            !b.verifyBatch(c.columnRoot, QueryPositions(b, c, s), c.columnProof)
  {
    var columnLength := s.rouDegree / 4;
    var ps := b.getFriIndexes(c.columnRoot, columnLength);
    if !b.verifyBatch(c.columnRoot, ps, c.columnProof) then Fail(ColumnProofFailed(depth))
    else if !b.verifyBatch(s.lRoot, Expand(ps, columnLength), c.polyProof) then Fail(PolyProofFailed(depth))
    else
      var polys := RowPolys(b, quartic, s.rou, ps, c.polyProof.values);
      if RowsMatchColumn(b, polys, b.prng(s.lRoot), c.columnProof.values, 0) then Pass
      else Fail(EvalMismatch(depth))
  }

  /** The root the verifier holds after the given components. */
  function LastRoot(components: seq<FriComponent>, lRoot: Digest): Digest
  {
    if |components| == 0 then lRoot else components[|components| - 1].columnRoot
  }

  /** Checks the components in order, updating the parameters after each.
      After `n` accepted components the root is the last column root, the
      root of unity is raised to `4^n`, and the degree bound and the domain
      size are divided by `4^n`, rounding down. */
  function CheckComponents(b: Backend, quartic: seq<int>, components: seq<FriComponent>, depth: nat, s: Schedule)
    : (r: Result<Schedule, LdError>)
    requires Valid(b) && |quartic| == 4
    ensures var n := |components|;
            r.Success? ==> r.value == Schedule(LastRoot(components, s.lRoot),
                                              RaisedRoot(s.rou, n, b.p),
                                              Quartered(s.maxDegreePlus1, n),
                                              Quartered(s.rouDegree, n))
    ensures r.Success? <==> (|components| == 0 || (ComponentValid(b, quartic, components[0], s) &&
              CheckComponents(b, quartic, components[1..], depth + 1, Next(s, components[0].columnRoot, b.p)).Success?))
    ensures r.Failure? ==> IsDepthError(r.error) && depth <= DepthOf(r.error) < depth + |components|
    ensures |components| > 0 && !ComponentValid(b, quartic, components[0], s) ==>
              r == Failure(CheckComponent(b, quartic, components[0], depth, s).error)
    ensures |components| > 0 && ComponentValid(b, quartic, components[0], s) ==>
              var rest := CheckComponents(b, quartic, components[1..], depth + 1, Next(s, components[0].columnRoot, b.p));
              rest.Failure? ==> r == Failure(rest.error)
    decreases |components|
  {
    if |components| == 0 then Success(s)
    else
      var c := components[0];
      var check := CheckComponent(b, quartic, c, depth, s);
      if check.Fail? then Failure(check.error)
      else
      var r := CheckComponents(b, quartic, components[1..], depth + 1, Next(s, c.columnRoot, b.p));
      if r.Success? then
        assert LastRoot(components[1..], c.columnRoot) == LastRoot(components, s.lRoot);
        r
      else r
  }

  /** `rou` raised to the fourth power `n` times. */
  function RaisedRoot(rou: int, n: nat, p: int): int
    requires p > 1
    decreases n
  {
    if n == 0 then rou else RaisedRoot(ModArith.Exp(rou, 4, p), n - 1, p)
  }

  /** `m` divided by four, rounding down, `n` times. */
  function Quartered(m: nat, n: nat): nat
  {
    if n == 0 then m else Quartered(m / 4, n - 1)
  }

  /** The schedule in closed form: after `n` components the root of unity is
      `rou^(4^n)` and a bound `m` has become `m / 4^n`, rounded down. */
  lemma {:induction false} ScheduleClosedForm(rou: int, m: nat, n: nat, p: int)
    requires p > 1 && 0 <= rou < p
    ensures RaisedRoot(rou, n, p) == ModArith.Exp(rou, ModArith.Pow4(n), p)
    ensures Quartered(m, n) == m / ModArith.Pow4(n)
    decreases n
  {
    if n == 0 {
      ModArith.ExpOne(rou, p);
    } else {
      ScheduleClosedForm(ModArith.Exp(rou, 4, p), m / 4, n - 1, p);
      ModArith.ExpExp(rou, 4, ModArith.Pow4(n - 1), p);
      ModArith.DivDiv(m, 4, ModArith.Pow4(n - 1));
    }
  }

  /** `verify` once the degree of the root of unity is known: the components,
      then the remainder's length, its root and its degree. Every failure is
      an error; success is always `true`. */
  function VerifyWithDegree(b: Backend, lRoot: Digest, maxDegreePlus1: nat, rou: int, rouDegree: nat,
                            proof: LowDegreeProof): (r: Result<bool, LdError>)
    requires Valid(b)
    ensures var n := |proof.components|;
            var m := Quartered(maxDegreePlus1, n);
            var last := RaisedRoot(rou, n, b.p);
            r.Success? ==> && r.value
                           && m <= |proof.remainder|
                           && b.root(proof.remainder) == LastRoot(proof.components, lRoot)
                           && VerifyRemainder(b, proof.remainder, m, last).Pass?
    ensures r.Failure? ==> r.error != InvalidArrayLength
    ensures r.Success? <==> Accepts(b, QuarticRoots(rou, rouDegree, b.p), proof, 0,
                                    Schedule(lRoot, rou, maxDegreePlus1, rouDegree))
    ensures var checked := CheckComponents(b, QuarticRoots(rou, rouDegree, b.p), proof.components, 0,
                                           Schedule(lRoot, rou, maxDegreePlus1, rouDegree));
            var m := Quartered(maxDegreePlus1, |proof.components|);
            && (checked.Failure? ==> r == Failure(checked.error))
            && (checked.Success? && m > |proof.remainder| ==>
                  r == Failure(RemainderDegreeTooHigh(m, |proof.remainder|)))
            && (checked.Success? && m <= |proof.remainder| && b.root(proof.remainder) != LastRoot(proof.components, lRoot) ==>
                  r == Failure(RemainderRootMismatch))
            && (var check := VerifyRemainder(b, proof.remainder, m, RaisedRoot(rou, |proof.components|, b.p));
                (checked.Success? && m <= |proof.remainder| && b.root(proof.remainder) == LastRoot(proof.components, lRoot)
                 && check.Fail?) ==> r == Failure(check.error))
  {
    var quartic := QuarticRoots(rou, rouDegree, b.p);
    var checked := CheckComponents(b, quartic, proof.components, 0, Schedule(lRoot, rou, maxDegreePlus1, rouDegree));
    if checked.Failure? then Failure(checked.error)
    else
      var n := |proof.components|;
      var m := Quartered(maxDegreePlus1, n);
      if m > |proof.remainder| then Failure(RemainderDegreeTooHigh(m, |proof.remainder|))
      else if b.root(proof.remainder) != LastRoot(proof.components, lRoot) then Failure(RemainderRootMismatch)
      else
        var check := VerifyRemainder(b, proof.remainder, m, RaisedRoot(rou, n, b.p));
        if check.Fail? then Failure(check.error) else Success(true)
  }

  /** `verify`: finds the degree of the root of unity, then checks the
      proof with it. */
  method Verify(b: Backend, lRoot: Digest, maxDegreePlus1: nat, rou: int, proof: LowDegreeProof)
    returns (r: Result<bool, LdError>)
    requires Valid(b) && 0 <= rou < b.p
    requires exists k: nat :: ModArith.Squared(rou, k, b.p) == 1
    ensures forall d: nat :: IsDegree(b.p, rou, d) ==> r == VerifyWithDegree(b, lRoot, maxDegreePlus1, rou, d, proof)
  {
    var degree := RootOfUnityDegree(b.p, rou);
    r := VerifyWithDegree(b, lRoot, maxDegreePlus1, rou, degree, proof);
    forall d: nat | IsDegree(b.p, rou, d)
      ensures d == degree
    {
      DegreeUnique(b.p, rou, d, degree);
    }
  }

  // ---------------------------------------------------------------------------
  // fri and prove

  /** The column of one folding round: each row of four values is
      interpolated over its four domain points and evaluated at the
      challenge drawn from the current root. */
  function FoldColumn(b: Backend, leaves: seq<int>, values: seq<int>, depth: nat, domain: seq<int>): (column: seq<int>)
    requires |domain| / (4 * ModArith.Pow4(depth)) >= |values| / 4
    ensures |column| == |values| / 4
  {
    var xs := ToRows(domain, ModArith.Pow4(depth));
    var ys := ToRows(values, 1);
    var specialX := b.prng(b.root(leaves));
    seq(|values| / 4, i requires 0 <= i < |values| / 4 =>
      b.evalPolyAt(b.interpolateQuartic(xs[i], ys[i]), specialX))
  }

  /** The component of one round: the column's root, and openings of the
      column and of the polynomial tree at the queried positions, expanded
      four ways for the polynomial. */
  function MakeComponent(b: Backend, leaves: seq<int>, column: seq<int>): FriComponent
  {
    var columnRoot := b.root(column);
    var positions := b.getFriIndexes(columnRoot, |column|);
    FriComponent(columnRoot, b.proveBatch(column, positions), b.proveBatch(leaves, Expand(positions, |column|)))
  }

  /** The number of folding rounds for `n` values. */
  function FoldCount(n: nat): nat
  {
    if n <= REMAINDER_LIMIT then 0 else 1 + FoldCount(n / 4)
  }

  /** `fri` at depth `depth` on the tree with these leaves, holding `values`.
      At most 256 values: the prover checks them itself and sends the leaves.
      Otherwise it folds, recurses one depth down, and puts its own
      component in front of the deeper ones. */
  function Fri(b: Backend, leaves: seq<int>, values: seq<int>, maxDegreePlus1: nat, depth: nat, domain: seq<int>)
    : (r: Result<LowDegreeProof, LdError>)
    requires b.p > 1 && |domain| >= 2
    requires ModArith.IsPowerOf2(|values|) && |domain| == |values| * ModArith.Pow4(depth)
    ensures r.Success? ==> |r.value.components| == FoldCount(|values|)
    ensures r.Success? && |values| <= REMAINDER_LIMIT ==> r.value.remainder == leaves
    ensures r.Success? ==> |values| <= REMAINDER_LIMIT || |r.value.remainder| <= REMAINDER_LIMIT
    ensures r.Failure? ==> r.error.RemainderTooFewPoints? || r.error.RemainderNotLowDegree?
    decreases |values|
  {
    if |values| <= REMAINDER_LIMIT then
      var rou := ModArith.Exp(domain[1], ModArith.Pow4(depth), b.p);
      var check := VerifyRemainder(b, values, maxDegreePlus1, rou);
      if check.Fail? then Failure(check.error) else Success(LowDegreeProof([], leaves))
    else
      FoldShape(values, depth, |domain|);
      var column := FoldColumn(b, leaves, values, depth, domain);
      var rest :- Fri(b, column, column, maxDegreePlus1 / 4, depth + 1, domain);
      Success(LowDegreeProof([MakeComponent(b, leaves, column)] + rest.components, rest.remainder))
  }

  /** The shape facts one folding round needs. */
  lemma FoldShape(values: seq<int>, depth: nat, n: nat)
    requires ModArith.IsPowerOf2(|values|) && |values| > REMAINDER_LIMIT && n == |values| * ModArith.Pow4(depth)
    ensures |values| % 4 == 0 && ModArith.IsPowerOf2(|values| / 4)
    ensures n == (|values| / 4) * ModArith.Pow4(depth + 1)
    ensures n / (4 * ModArith.Pow4(depth)) == |values| / 4
    ensures n == 4 * (|values| / 4) * ModArith.Pow4(depth)
  {
    ModArith.QuarterOfPowerOf2(|values|);
    var q := |values| / 4;
    assert n == q * ModArith.Pow4(depth + 1);
    ModArith.DivModUnique(n, q, 0, 4 * ModArith.Pow4(depth));
  }

  /** `Math.ceil(Math.log2(n) / 2)` for `n >= 1`: the least `k` with
      `4^k >= n`. */
  function CeilLog4(n: nat): (k: nat)
    requires n >= 1
    ensures ModArith.Pow4(k) >= n
    ensures k >= 1 ==> ModArith.Pow4(k - 1) < n
  {
    if n == 1 then 0 else 1 + CeilLog4((n + 3) / 4)
  }

  /** `prove`: sizes the component list with
      `Math.min(Math.ceil(Math.log2(n) / 2) - 4, 0)`, which is negative, so
      `new Array` throws, exactly when there are at most 64 values (the
      logarithm of zero values is minus infinity), and is zero otherwise;
      the list then holds whatever `fri` puts in it. */
  function Prove(b: Backend, leaves: seq<int>, values: seq<int>, domain: seq<int>, maxDegreePlus1: nat)
    : (r: Result<LowDegreeProof, LdError>)
    requires b.p > 1
    requires |values| > 64 ==> ModArith.IsPowerOf2(|values|) && |domain| == |values|
    ensures r == Failure(InvalidArrayLength) <==> |values| <= 64
    ensures |values| > 64 ==> r == Fri(b, leaves, values, maxDegreePlus1, 0, domain)
  {
    if |values| == 0 || CeilLog4(|values|) - 4 < 0 then
      Failure(InvalidArrayLength)
    else
      PresizeLength(|values|);
      Fri(b, leaves, values, maxDegreePlus1, 0, domain)
  }

  /** `ceil(log2(n) / 2) - 4` is negative exactly for `n <= 64`. */
  lemma PresizeLength(n: nat)
    requires n >= 1
    ensures CeilLog4(n) < 4 <==> n <= 64
  {
    var k := CeilLog4(n);
    if k < 4 {
      Pow4Monotone(k, 3);
    } else {
      Pow4Monotone(3, k - 1);
    }
  }

  lemma {:induction false} Pow4Monotone(a: nat, b: nat)
    requires a <= b
    ensures ModArith.Pow4(a) <= ModArith.Pow4(b)
  {
    if a < b {
      Pow4Monotone(a, b - 1);
    }
  }

  // ---------------------------------------------------------------------------
  // The component count `prove` evidently means to pre-size

  /** `Math.max(Math.ceil(Math.log2(n) / 2) - 4, 0)`: the number of folding
      rounds from `n` values down to at most 256. */
  function PresizeCount(n: nat): nat
    requires n >= 1
  {
    if CeilLog4(n) >= 4 then CeilLog4(n) - 4 else 0
  }

  /** For a power-of-two length the corrected pre-size is exactly the number
      of components `fri` produces. */
  lemma {:induction false} PresizeMatchesFolds(n: nat)
    requires ModArith.IsPowerOf2(n) && n >= 1
    ensures PresizeCount(n) == FoldCount(n)
    decreases n
  {
    if n <= REMAINDER_LIMIT {
      if CeilLog4(n) >= 5 {
        Pow4Monotone(4, CeilLog4(n) - 1);
      }
    } else {
      ModArith.QuarterOfPowerOf2(n);
      assert (n + 3) / 4 == n / 4;
      PresizeMatchesFolds(n / 4);
      PresizeLength(n / 4);
    }
  }

  /** `prove` with the pre-size clamped from below, as evidently intended:
      it never fails on the array length, and on success the proof has as
      many components as were pre-sized. */
  function ProveIntended(b: Backend, leaves: seq<int>, values: seq<int>, domain: seq<int>, maxDegreePlus1: nat)
    : (r: Result<LowDegreeProof, LdError>)
    requires b.p > 1
    requires ModArith.IsPowerOf2(|values|) && |values| >= 2 && |domain| == |values|
    ensures r.Failure? ==> r.error != InvalidArrayLength
    ensures r.Success? ==> |r.value.components| == PresizeCount(|values|)
  {
    assert ModArith.Pow4(0) == 1;
    PresizeMatchesFolds(|values|);
    Fri(b, leaves, values, maxDegreePlus1, 0, domain)
  }

  /** As written, `prove` rejects 64 values, a power of two that `fri`
      handles directly, while the corrected version passes them on to `fri`. */
  lemma SixtyFourValuesRejected(b: Backend, leaves: seq<int>, values: seq<int>, domain: seq<int>, maxDegreePlus1: nat)
    requires b.p > 1 && |values| == 64 && |domain| == 64
    ensures ModArith.IsPowerOf2(|values|)
    ensures Prove(b, leaves, values, domain, maxDegreePlus1) == Failure(InvalidArrayLength)
    ensures ProveIntended(b, leaves, values, domain, maxDegreePlus1) == Fri(b, leaves, values, maxDegreePlus1, 0, domain)
  {
    assert ModArith.IsPowerOf2(2) && ModArith.IsPowerOf2(4) && ModArith.IsPowerOf2(8);
    assert ModArith.IsPowerOf2(16) && ModArith.IsPowerOf2(32) && ModArith.IsPowerOf2(64);
  }

  // ---------------------------------------------------------------------------
  // An honest proof is accepted

  /** The evaluation domain is the list of powers of `rou`. */
  ghost predicate IsPowerDomain(domain: seq<int>, rou: int, p: int)
    requires p > 1
  {
    0 <= rou < p && forall j :: 0 <= j < |domain| ==> domain[j] == ModArith.Exp(rou, j, p)
  }

  /** The x-coordinates the verifier rebuilds for column position `q` are the
      domain points the prover interpolated that row over. */
  lemma XsAgree(domain: seq<int>, rou: int, p: int, n: nat, depth: nat, q: nat)
    requires p > 1 && IsPowerDomain(domain, rou, p)
    requires |domain| == 4 * n * ModArith.Pow4(depth) && q < n
    ensures var step := ModArith.Pow4(depth);
            |domain| / (4 * step) == n &&
            PointXs(QuarticRoots(rou, |domain|, p), ModArith.Exp(rou, step, p), q, p) == ToRows(domain, step)[q]
  {
    var step := ModArith.Pow4(depth);
    var N := |domain|;
    DomainQuarters(N, n, step);
    var xs := PointXs(QuarticRoots(rou, N, p), ModArith.Exp(rou, step, p), q, p);
    forall k | 0 <= k < 4
      ensures xs[k] == ToRows(domain, step)[q][k]
    {
      QuarticRootIdentity(rou, N, step, q, k, p);
      RowEntry(domain, step, q, k);
      IndexArith(q, k, n, step);
    }
  }

  lemma DomainQuarters(N: nat, n: nat, step: nat)
    requires step >= 1 && N == 4 * n * step
    ensures N / (4 * step) == n && N % 4 == 0 && N / 4 == n * step
  {
    ModArith.DivModUnique(N, n, 0, 4 * step);
    ModArith.DivModUnique(N, n * step, 0, 4);
  }

  lemma IndexArith(q: nat, k: nat, n: nat, step: nat)
    ensures (q + k * n) * step == step * q + k * (n * step)
  {
  }

  /** The opened polynomial values of column position `i` are the row the
      prover interpolated. */
  lemma YsAgree(values: seq<int>, positions: seq<nat>, polyValues: seq<int>, i: nat)
    requires |values| % 4 == 0 && i < |positions|
    requires forall j :: 0 <= j < |positions| ==> positions[j] < |values| / 4
    requires |polyValues| == 4 * |positions|
    requires forall j :: 0 <= j < 4 * |positions| ==>
               Expand(positions, |values| / 4)[j] < |values| &&
               polyValues[j] == values[Expand(positions, |values| / 4)[j]]
    ensures positions[i] < |ToRows(values, 1)|
    ensures polyValues[4 * i .. 4 * i + 4] == ToRows(values, 1)[positions[i]]
  {
    var L := |values| / 4;
    forall k | 0 <= k < 4
      ensures polyValues[4 * i + k] == ToRows(values, 1)[positions[i]][k]
    {
      ExpandDecodes(positions, L, i, k);
      RowEntry(values, 1, positions[i], k);
      assert Expand(positions, L)[4 * i + k] == positions[i] + k * L;
    }
  }

  /** The openings in an honest component verify and carry the column and
      polynomial values at the queried positions. */
  lemma ComponentOpenings(b: Backend, values: seq<int>, column: seq<int>)
    requires Valid(b) && |values| == 4 * |column|
    ensures var c := MakeComponent(b, values, column);
            var ps := b.getFriIndexes(b.root(column), |column|);
            && b.verifyBatch(c.columnRoot, ps, c.columnProof)
            && b.verifyBatch(b.root(values), Expand(ps, |column|), c.polyProof)
            && (forall i :: 0 <= i < |ps| ==> ps[i] < |column| && c.columnProof.values[i] == column[ps[i]])
            && |c.polyProof.values| == 4 * |ps|
            && forall j :: 0 <= j < 4 * |ps| ==>
                 Expand(ps, |column|)[j] < |values| && c.polyProof.values[j] == values[Expand(ps, |column|)[j]]
  {
    var ps := b.getFriIndexes(b.root(column), |column|);
    assert forall i :: 0 <= i < |ps| ==> ps[i] < |column|;
    var expanded := Expand(ps, |column|);
    forall j | 0 <= j < |expanded|
      ensures expanded[j] < |values|
    {
      ExpandDecodes(ps, |column|, j / 4, j % 4);
    }
  }

  /** Every rebuilt row polynomial of an honest component meets the opened
      column value at the challenge. */
  lemma RowsMatch(b: Backend, rou: int, domain: seq<int>, values: seq<int>, column: seq<int>, depth: nat,
                  ps: seq<nat>, polyValues: seq<int>, columnValues: seq<int>, x: int)
    requires b.p > 1 && IsPowerDomain(domain, rou, b.p)
    requires |values| == 4 * |column| && |domain| == 4 * |column| * ModArith.Pow4(depth)
    requires var xs := ToRows(domain, ModArith.Pow4(depth));
             var ys := ToRows(values, 1);
             |xs| == |column| && |ys| == |column| &&
             forall q :: 0 <= q < |column| ==> column[q] == b.evalPolyAt(b.interpolateQuartic(xs[q], ys[q]), x)
    requires |polyValues| == 4 * |ps| && |columnValues| == |ps|
    requires forall i :: 0 <= i < |ps| ==> ps[i] < |column| && columnValues[i] == column[ps[i]]
    requires forall j :: 0 <= j < 4 * |ps| ==>
               Expand(ps, |column|)[j] < |values| && polyValues[j] == values[Expand(ps, |column|)[j]]
    ensures var polys := RowPolys(b, QuarticRoots(rou, |domain|, b.p), ModArith.Exp(rou, ModArith.Pow4(depth), b.p),
                                  ps, polyValues);
            forall i :: 0 <= i < |ps| ==> b.evalPolyAt(polys[i], x) == columnValues[i]
  {
    var quartic := QuarticRoots(rou, |domain|, b.p);
    var r := ModArith.Exp(rou, ModArith.Pow4(depth), b.p);
    var polys := RowPolys(b, quartic, r, ps, polyValues);
    forall i | 0 <= i < |ps|
      ensures b.evalPolyAt(polys[i], x) == columnValues[i]
    {
      XsAgree(domain, rou, b.p, |column|, depth, ps[i]);
      YsAgree(values, ps, polyValues, i);
      assert polys[i] == b.interpolateQuartic(PointXs(quartic, r, ps[i], b.p), polyValues[4 * i .. 4 * i + 4]);
    }
  }

  /** The component an honest prover builds at one depth passes the
      verifier's checks at that depth. */
  lemma HonestComponentValid(b: Backend, rou: int, domain: seq<int>, values: seq<int>, column: seq<int>,
                             depth: nat, s: Schedule)
    requires Valid(b) && IsPowerDomain(domain, rou, b.p)
    requires |values| == 4 * |column| && |domain| == 4 * |column| * ModArith.Pow4(depth)
    requires var xs := ToRows(domain, ModArith.Pow4(depth));
             var ys := ToRows(values, 1);
             |xs| == |column| && |ys| == |column| &&
             forall q :: 0 <= q < |column| ==>
               column[q] == b.evalPolyAt(b.interpolateQuartic(xs[q], ys[q]), b.prng(b.root(values)))
    requires s.lRoot == b.root(values) && s.rou == ModArith.Exp(rou, ModArith.Pow4(depth), b.p)
    requires s.rouDegree == |values|
    ensures ComponentValid(b, QuarticRoots(rou, |domain|, b.p), MakeComponent(b, values, column), s)
  {
    var c := MakeComponent(b, values, column);
    var ps := b.getFriIndexes(b.root(column), |column|);
    ComponentOpenings(b, values, column);
    RowsMatch(b, rou, domain, values, column, depth, ps, c.polyProof.values, c.columnProof.values, b.prng(s.lRoot));
    ComponentValidIntro(b, QuarticRoots(rou, |domain|, b.p), c, s, ps);
  }

  /** The folded column is the row polynomials evaluated at the challenge. */
  lemma FoldColumnRows(b: Backend, leaves: seq<int>, values: seq<int>, depth: nat, domain: seq<int>)
    requires FoldShapeOk(values, depth, domain)
    ensures var column := FoldColumn(b, leaves, values, depth, domain);
            var xs := ToRows(domain, ModArith.Pow4(depth));
            var ys := ToRows(values, 1);
            |xs| == |column| && |ys| == |column| &&
            forall q :: 0 <= q < |column| ==>
              column[q] == b.evalPolyAt(b.interpolateQuartic(xs[q], ys[q]), b.prng(b.root(leaves)))
  {
  }

  lemma ComponentValidIntro(b: Backend, quartic: seq<int>, c: FriComponent, s: Schedule, ps: seq<nat>)
    requires Valid(b) && |quartic| == 4
    requires ps == b.getFriIndexes(c.columnRoot, s.rouDegree / 4)
    requires b.verifyBatch(c.columnRoot, ps, c.columnProof)
    requires b.verifyBatch(s.lRoot, Expand(ps, s.rouDegree / 4), c.polyProof)
    requires var polys := RowPolys(b, quartic, s.rou, ps, c.polyProof.values);
             forall i :: 0 <= i < |ps| ==> b.evalPolyAt(polys[i], b.prng(s.lRoot)) == c.columnProof.values[i]
    ensures ComponentValid(b, quartic, c, s)
  {
  }

  /** The shape facts of one folding round, as a predicate. */
  predicate FoldShapeOk(values: seq<int>, depth: nat, domain: seq<int>)
  {
    |values| % 4 == 0 && ModArith.IsPowerOf2(|values| / 4)
    && |domain| == (|values| / 4) * ModArith.Pow4(depth + 1)
    && |domain| / (4 * ModArith.Pow4(depth)) == |values| / 4
  }

  /** From parameters `s` at `depth`, the verifier accepts the proof: every
      component passes, the degree bound fits the remainder, the remainder's
      root is the one the verifier then holds, and the remainder passes the
      degree check. */
  ghost predicate Accepts(b: Backend, quartic: seq<int>, proof: LowDegreeProof, depth: nat, s: Schedule)
    requires Valid(b) && |quartic| == 4
  {
    var c := CheckComponents(b, quartic, proof.components, depth, s);
    && c.Success?
    && c.value.maxDegreePlus1 <= |proof.remainder|
    && b.root(proof.remainder) == c.value.lRoot
    && VerifyRemainder(b, proof.remainder, c.value.maxDegreePlus1, c.value.rou).Pass?
  }

  /** Acceptance extends by one valid component in front. */
  lemma AcceptsCons(b: Backend, quartic: seq<int>, c: FriComponent, rest: LowDegreeProof, depth: nat, s: Schedule)
    requires Valid(b) && |quartic| == 4
    requires ComponentValid(b, quartic, c, s)
    requires Accepts(b, quartic, rest, depth + 1, Next(s, c.columnRoot, b.p))
    ensures Accepts(b, quartic, LowDegreeProof([c] + rest.components, rest.remainder), depth, s)
  {
    assert ([c] + rest.components)[1..] == rest.components;
  }

  /** When `fri` stops folding it succeeds exactly when its own remainder
      check on the powers of `domain[1]^(4^depth)` passes, and then sends no
      component and the leaves in the clear. */
  lemma FriStops(b: Backend, leaves: seq<int>, values: seq<int>, maxDegreePlus1: nat, depth: nat, domain: seq<int>)
    requires b.p > 1 && |domain| >= 2
    requires ModArith.IsPowerOf2(|values|) && |domain| == |values| * ModArith.Pow4(depth)
    requires |values| <= REMAINDER_LIMIT
    ensures var r := Fri(b, leaves, values, maxDegreePlus1, depth, domain);
            var check := VerifyRemainder(b, values, maxDegreePlus1, ModArith.Exp(domain[1], ModArith.Pow4(depth), b.p));
            && (r.Success? <==> check.Pass?)
            && (r.Success? ==> r.value == LowDegreeProof([], leaves))
            && (r.Failure? ==> r.error == check.error)
  {
  }

  /** Above 256 values `fri` folds once: it succeeds exactly when the call
      one depth down on the folded column succeeds, and then puts its own
      component in front of the deeper ones. */
  lemma FriFolds(b: Backend, values: seq<int>, maxDegreePlus1: nat, depth: nat, domain: seq<int>)
    requires b.p > 1 && |domain| >= 2
    requires ModArith.IsPowerOf2(|values|) && |domain| == |values| * ModArith.Pow4(depth)
    requires |values| > REMAINDER_LIMIT
    ensures FoldShapeOk(values, depth, domain)
    ensures var column := FoldColumn(b, values, values, depth, domain);
            var rest := Fri(b, column, column, maxDegreePlus1 / 4, depth + 1, domain);
            && (Fri(b, values, values, maxDegreePlus1, depth, domain).Success? <==> rest.Success?)
            && (rest.Success? ==>
                  Fri(b, values, values, maxDegreePlus1, depth, domain).value
                  == LowDegreeProof([MakeComponent(b, values, column)] + rest.value.components, rest.value.remainder))
  {
    FoldShape(values, depth, |domain|);
  }

  /** Completeness, depth by depth: from the parameters the verifier holds
      at `depth`, the verifier accepts what an honest prover sends from
      there. */
  lemma {:induction false} FriAccepted(b: Backend, rou: int, domain: seq<int>, values: seq<int>, maxDegreePlus1: nat,
                                       depth: nat, s: Schedule)
    requires Valid(b) && IsPowerDomain(domain, rou, b.p) && |domain| >= 2
    requires ModArith.IsPowerOf2(|values|) && |domain| == |values| * ModArith.Pow4(depth)
    requires s == Schedule(b.root(values), ModArith.Exp(rou, ModArith.Pow4(depth), b.p), maxDegreePlus1, |values|)
    requires Fri(b, values, values, maxDegreePlus1, depth, domain).Success?
    ensures Accepts(b, QuarticRoots(rou, |domain|, b.p), Fri(b, values, values, maxDegreePlus1, depth, domain).value,
                    depth, s)
    decreases |values|
  {
    if |values| <= REMAINDER_LIMIT {
      FriLeafAccepted(b, rou, domain, values, maxDegreePlus1, depth, s);
    } else {
      FriFolds(b, values, maxDegreePlus1, depth, domain);
      var column := FoldColumn(b, values, values, depth, domain);
      var rest := Fri(b, column, column, maxDegreePlus1 / 4, depth + 1, domain).value;
      FriAccepted(b, rou, domain, column, maxDegreePlus1 / 4, depth + 1, NextHonest(b, rou, column, maxDegreePlus1, depth));
      FriStepAccepted(b, rou, domain, values, maxDegreePlus1, depth, s, column, rest);
    }
  }

  /** Completeness of one folding round: an honest component in front of a
      proof the verifier accepts from the next parameters. */
  lemma FriStepAccepted(b: Backend, rou: int, domain: seq<int>, values: seq<int>, maxDegreePlus1: nat,
                        depth: nat, s: Schedule, column: seq<int>, rest: LowDegreeProof)
    requires Valid(b) && IsPowerDomain(domain, rou, b.p)
    requires s == Schedule(b.root(values), ModArith.Exp(rou, ModArith.Pow4(depth), b.p), maxDegreePlus1, |values|)
    requires FoldShapeOk(values, depth, domain)
    requires column == FoldColumn(b, values, values, depth, domain)
    requires Accepts(b, QuarticRoots(rou, |domain|, b.p), rest, depth + 1, NextHonest(b, rou, column, maxDegreePlus1, depth))
    ensures Accepts(b, QuarticRoots(rou, |domain|, b.p),
                    LowDegreeProof([MakeComponent(b, values, column)] + rest.components, rest.remainder), depth, s)
  {
    var quartic := QuarticRoots(rou, |domain|, b.p);
    var comp := MakeComponent(b, values, column);
    FoldedComponentValid(b, rou, domain, values, depth, s, column);
    NextIsHonest(b, rou, values, maxDegreePlus1, depth, s, column);
    AcceptsCons(b, quartic, comp, rest, depth, s);
  }

  /** The component `fri` builds from a folded column is valid. */
  lemma FoldedComponentValid(b: Backend, rou: int, domain: seq<int>, values: seq<int>, depth: nat, s: Schedule,
                             column: seq<int>)
    requires Valid(b) && IsPowerDomain(domain, rou, b.p)
    requires s.lRoot == b.root(values) && s.rou == ModArith.Exp(rou, ModArith.Pow4(depth), b.p)
    requires s.rouDegree == |values|
    requires FoldShapeOk(values, depth, domain)
    requires column == FoldColumn(b, values, values, depth, domain)
    ensures ComponentValid(b, QuarticRoots(rou, |domain|, b.p), MakeComponent(b, values, column), s)
  {
    FoldColumnRows(b, values, values, depth, domain);
    assert ModArith.Pow4(depth + 1) == 4 * ModArith.Pow4(depth);
    FoldLengths(|values|, |column|, |domain|, ModArith.Pow4(depth));
    HonestComponentValid(b, rou, domain, values, column, depth, s);
  }

  /** After an honest component the verifier moves to the parameters of the
      next depth. */
  lemma NextIsHonest(b: Backend, rou: int, values: seq<int>, maxDegreePlus1: nat, depth: nat, s: Schedule,
                     column: seq<int>)
    requires b.p > 1 && |column| == |values| / 4
    requires s == Schedule(b.root(values), ModArith.Exp(rou, ModArith.Pow4(depth), b.p), maxDegreePlus1, |values|)
    ensures Next(s, b.root(column), b.p) == NextHonest(b, rou, column, maxDegreePlus1, depth)
  {
    var q := ModArith.Pow4(depth);
    ModArith.ExpExp(rou, q, 4, b.p);
    assert ModArith.Pow4(depth + 1) == q * 4;
  }

  /** The lengths one folding round leaves behind. */
  lemma FoldLengths(values: nat, column: nat, domain: nat, q: nat)
    requires values % 4 == 0 && column == values / 4 && domain == column * (4 * q)
    ensures values == 4 * column && domain == 4 * column * q
  {
  }

  /** The parameters the verifier holds after an honest component. */
  function NextHonest(b: Backend, rou: int, column: seq<int>, maxDegreePlus1: nat, depth: nat): Schedule
    requires b.p > 1
  {
    Schedule(b.root(column), ModArith.Exp(rou, ModArith.Pow4(depth + 1), b.p), maxDegreePlus1 / 4, |column|)
  }

  /** Completeness when `fri` stops folding at once. */
  lemma FriLeafAccepted(b: Backend, rou: int, domain: seq<int>, values: seq<int>, maxDegreePlus1: nat,
                        depth: nat, s: Schedule)
    requires Valid(b) && IsPowerDomain(domain, rou, b.p) && |domain| >= 2
    requires ModArith.IsPowerOf2(|values|) && |domain| == |values| * ModArith.Pow4(depth)
    requires s == Schedule(b.root(values), ModArith.Exp(rou, ModArith.Pow4(depth), b.p), maxDegreePlus1, |values|)
    requires |values| <= REMAINDER_LIMIT
    requires Fri(b, values, values, maxDegreePlus1, depth, domain).Success?
    ensures Accepts(b, QuarticRoots(rou, |domain|, b.p), Fri(b, values, values, maxDegreePlus1, depth, domain).value,
                    depth, s)
  {
    ModArith.ExpOne(rou, b.p);
    assert domain[1] == rou;
  }

  /** Completeness: a proof from the corrected `prove` on the powers of
      `rou` passes `verify` given the domain size as the degree of `rou`.
      With `Verify`'s contract, `verify` itself returns `true` whenever the
      domain size is the degree `computeRootOfUnityDegree` finds. */
  lemma HonestProofAccepted(b: Backend, rou: int, domain: seq<int>, values: seq<int>, maxDegreePlus1: nat)
    requires Valid(b) && IsPowerDomain(domain, rou, b.p)
    requires ModArith.IsPowerOf2(|values|) && |values| >= 2 && |domain| == |values|
    requires ProveIntended(b, values, values, domain, maxDegreePlus1).Success?
    ensures VerifyWithDegree(b, b.root(values), maxDegreePlus1, rou, |values|,
                             ProveIntended(b, values, values, domain, maxDegreePlus1).value) == Success(true)
  {
    var proof := ProveIntended(b, values, values, domain, maxDegreePlus1).value;
    assert ModArith.Pow4(0) == 1 && |domain| == |values| * ModArith.Pow4(0);
    assert proof == Fri(b, values, values, maxDegreePlus1, 0, domain).value;
    ModArith.ExpOne(rou, b.p);
    var s := Schedule(b.root(values), rou, maxDegreePlus1, |values|);
    FriAccepted(b, rou, domain, values, maxDegreePlus1, 0, s);
    assert Accepts(b, QuarticRoots(rou, |values|, b.p), proof, 0, s);
  }

  /** The as-written `prove` agrees with the corrected one above 64 values,
      so its proofs are accepted too. */
  lemma ProveAgreesAbove64(b: Backend, leaves: seq<int>, values: seq<int>, domain: seq<int>, maxDegreePlus1: nat)
    requires b.p > 1 && ModArith.IsPowerOf2(|values|) && |values| > 64 && |domain| == |values|
    ensures Prove(b, leaves, values, domain, maxDegreePlus1) == ProveIntended(b, leaves, values, domain, maxDegreePlus1)
  {
    assert ModArith.Pow4(0) == 1;
  }
}

=== FILE: ModArith.dfy ===
/** Exact integer arithmetic used by the model in place of floating point and
    of the field library's `mul` and `exp`: powers, floor division by powers
    of four, and multiplication and exponentiation modulo a modulus `p`. */
module ModArith {

  function Pow(x: int, n: nat): int
  {
    if n == 0 then 1 else x * Pow(x, n - 1)
  }

  function Pow2(n: nat): (r: nat)
    ensures r >= 1
  {
    if n == 0 then 1 else 2 * Pow2(n - 1)
  }

  function Pow4(n: nat): (r: nat)
    ensures r >= 1
  {
    if n == 0 then 1 else 4 * Pow4(n - 1)
  }

  /** `n` is one of 1, 2, 4, 8, ... */
  predicate IsPowerOf2(n: int)
  {
    n == 1 || (n > 1 && n % 2 == 0 && IsPowerOf2(n / 2))
  }

  /** A power of two above 256 has a quarter that is again a power of two. */
  lemma {:induction false} QuarterOfPowerOf2(n: int)
    requires IsPowerOf2(n) && n > 256
    ensures n % 4 == 0 && IsPowerOf2(n / 4)
  {
    assert IsPowerOf2(n / 2) && n / 2 > 1;
    assert (n / 2) / 2 == n / 4;
  }

  /** The field library's multiplication: the product reduced modulo `p`. */
  function Mul(a: int, b: int, p: int): (r: int)
    requires p > 1
    ensures 0 <= r < p
  {
    (a * b) % p
  }

  /** The field library's exponentiation: `x` to the `n`, reduced modulo `p`. */
  function Exp(x: int, n: nat, p: int): (r: int)
    requires p > 1
    ensures 0 <= r < p
  {
    Pow(x, n) % p
  }

  // ---------------------------------------------------------------------------
  // Euclidean division facts

  /** A multiple of `p` strictly between `-p` and `p` is zero. */
  lemma MulSmall(d: int, p: int)
    requires p > 0 && -p < d * p < p
    ensures d == 0
  {
  }

  /** A multiple of a positive `p` that is below `p` is at most zero. */
  lemma MulBelow(d: int, p: int)
    requires p > 0 && d * p < p
    ensures d <= 0
  {
  }

  /** Division by a positive `p` has exactly one quotient and remainder. */
  lemma DivModUnique(x: int, q: int, r: int, p: int)
    requires p > 0 && 0 <= r < p && x == q * p + r
    ensures x / p == q && x % p == r
  {
    var q0, r0 := x / p, x % p;
    assert (q0 - q) * p == r - r0;
    MulSmall(q0 - q, p);
  }

  lemma ModAddMultiple(k: int, c: int, p: int)
    requires p > 0
    ensures (k * p + c) % p == c % p
  {
    var q, r := c / p, c % p;
    assert k * p + c == (k + q) * p + r;
    DivModUnique(k * p + c, k + q, r, p);
  }

  lemma ProductExpands(qa: int, ra: int, qb: int, rb: int, p: int)
    ensures (qa * p + ra) * (qb * p + rb) == (qa * qb * p + qa * rb + ra * qb) * p + ra * rb
  {
    calc {
      (qa * p + ra) * (qb * p + rb);
      (qa * p) * (qb * p) + (qa * p) * rb + ra * (qb * p) + ra * rb;
      (qa * qb * p) * p + (qa * rb) * p + (ra * qb) * p + ra * rb;
    }
  }

  /** Reducing the factors first does not change a product modulo `p`. */
  lemma ModMul(a: int, b: int, p: int)
    requires p > 0
    ensures (a * b) % p == ((a % p) * (b % p)) % p
  {
    var qa, ra := a / p, a % p;
    var qb, rb := b / p, b % p;
    assert a == qa * p + ra && b == qb * p + rb;
    ProductExpands(qa, ra, qb, rb, p);
    ModAddMultiple(qa * qb * p + qa * rb + ra * qb, ra * rb, p);
  }

  lemma ModAdd(a: int, b: int, p: int)
    requires p > 0
    ensures (a + b) % p == ((a % p) + (b % p)) % p
  {
    var qa, ra := a / p, a % p;
    var qb, rb := b / p, b % p;
    assert a + b == (qa + qb) * p + (ra + rb);
    ModAddMultiple(qa + qb, ra + rb, p);
  }

  lemma ModOfReduced(x: int, p: int)
    requires 0 <= x < p
    ensures x % p == x
  {
    DivModUnique(x, 0, x, p);
  }

  lemma MulMonotone(a: int, x: int, y: int)
    requires a >= 0 && x <= y
    ensures a * x <= a * y
  {
    assert a * y - a * x == a * (y - x);
  }

  /** Floor division by `a` and then by `b` is floor division by `a * b`. */
  lemma DivDiv(m: nat, a: nat, b: nat)
    requires a > 0 && b > 0
    ensures (m / a) / b == m / (a * b)
  {
    var q, r := m / a, m % a;
    var q2, r2 := q / b, q % b;
    assert m == a * q + r;
    assert q == b * q2 + r2;
    assert a * q == a * b * q2 + a * r2;
    MulMonotone(a, r2, b - 1);
    assert a * (b - 1) == a * b - a;
    DivModUnique(m, q2, a * r2 + r, a * b);
  }

  // ---------------------------------------------------------------------------
  // Laws of powers

  lemma {:induction false} PowAdd(x: int, a: nat, b: nat)
    ensures Pow(x, a + b) == Pow(x, a) * Pow(x, b)
  {
    if a > 0 {
      PowAdd(x, a - 1, b);
      assert Pow(x, a + b) == x * Pow(x, a - 1 + b);
    }
  }

  lemma {:induction false} PowMul(x: int, a: nat, b: nat)
    ensures Pow(x, a * b) == Pow(Pow(x, a), b)
  {
    if b > 0 {
      PowMul(x, a, b - 1);
      PowAdd(x, a, a * (b - 1));
      assert a * b == a + a * (b - 1);
    }
  }

  lemma {:induction false} PowMod(x: int, n: nat, p: int)
    requires p > 0
    ensures Pow(x, n) % p == Pow(x % p, n) % p
  {
    if n > 0 {
      PowMod(x, n - 1, p);
      calc {
        Pow(x, n) % p;
        (x * Pow(x, n - 1)) % p;
        { ModMul(x, Pow(x, n - 1), p); }
        ((x % p) * (Pow(x, n - 1) % p)) % p;
        ((x % p) * (Pow(x % p, n - 1) % p)) % p;
        { ModOfReduced(x % p, p); ModMul(x % p, Pow(x % p, n - 1), p); }
        ((x % p) * Pow(x % p, n - 1)) % p;
      }
    }
  }

  lemma Pow2IsPow(n: nat)
    ensures Pow2(n) == Pow(2, n)
  {
  }

  lemma {:induction false} Pow4IsPow2(n: nat)
    ensures Pow4(n) == Pow2(2 * n)
  {
    if n > 0 {
      Pow4IsPow2(n - 1);
      assert 2 * n == (2 * (n - 1) + 1) + 1;
    }
  }

  // ---------------------------------------------------------------------------
  // Laws of modular exponentiation

  lemma ExpZero(x: int, p: int)
    requires p > 1
    ensures Exp(x, 0, p) == 1
  {
    ModOfReduced(1, p);
  }

  lemma ExpOne(x: int, p: int)
    requires p > 1 && 0 <= x < p
    ensures Exp(x, 1, p) == x
  {
    assert Pow(x, 1) == x;
    ModOfReduced(x, p);
  }

  /** `x^a * x^b == x^(a+b)` in the field. */
  lemma ExpAdd(x: int, a: nat, b: nat, p: int)
    requires p > 1
    ensures Mul(Exp(x, a, p), Exp(x, b, p), p) == Exp(x, a + b, p)
  {
    PowAdd(x, a, b);
    ModMul(Pow(x, a), Pow(x, b), p);
  }

  /** `(x^a)^b == x^(a*b)` in the field. */
  lemma ExpExp(x: int, a: nat, b: nat, p: int)
    requires p > 1
    ensures Exp(Exp(x, a, p), b, p) == Exp(x, a * b, p)
  {
    PowMul(x, a, b);
    PowMod(Pow(x, a), b, p);
  }

  /** Multiplying by the field's one leaves a reduced value unchanged. */
  lemma MulOne(y: int, p: int)
    requires p > 1 && 0 <= y < p
    ensures Mul(1, y, p) == y
  {
    ModOfReduced(y, p);
  }

  /** The power of one is one. */
  lemma {:induction false} OneExp(n: nat, p: int)
    requires p > 1
    ensures Exp(1, n, p) == 1
  {
    if n > 0 {
      OneExp(n - 1, p);
      assert Pow(1, n) == Pow(1, n - 1);
    }
    ModOfReduced(1, p);
  }

  // ---------------------------------------------------------------------------
  // Repeated squaring

  /** `x` squared `k` times in the field. */
  function Squared(x: int, k: nat, p: int): int
    requires p > 1
  {
    if k == 0 then x else Mul(Squared(x, k - 1, p), Squared(x, k - 1, p), p)
  }

  /** Squaring a field element `k` times raises it to the power `2^k`. */
  lemma {:induction false} SquaredIsExp(x: int, k: nat, p: int)
    requires p > 1 && 0 <= x < p
    ensures Squared(x, k, p) == Exp(x, Pow2(k), p)
  {
    if k == 0 {
      ExpOne(x, p);
    } else {
      SquaredIsExp(x, k - 1, p);
      ExpAdd(x, Pow2(k - 1), Pow2(k - 1), p);
    }
  }

  /** Once the squaring chain reaches one it stays at one. */
  lemma {:induction false} SquaredStaysOne(x: int, j: nat, k: nat, p: int)
    requires p > 1 && j <= k && Squared(x, j, p) == 1
    ensures Squared(x, k, p) == 1
  {
    if j < k {
      SquaredStaysOne(x, j, k - 1, p);
      MulOne(1, p);
    }
  }
}

=== FILE: Primitives.dfy ===
/** The primitives the low-degree prover is built on: the prime field's
    polynomial operations, Merkle trees over field elements, the
    pseudo-random challenge and the query-index generator. Their
    implementations live in other libraries; here each is a function-valued
    field of `Backend`, and the predicates below state the few facts about
    them that the prover and the verifier rely on. Multiplication and
    exponentiation are concrete (`ModArith.Mul`, `ModArith.Exp`), and so are
    the two reshaping helpers whose layout the verifier fixes. */
module Primitives {
  import ModArith

  /** A Merkle root. */
  type Digest = seq<int>

  /** Polynomial coefficients. */
  type Poly = seq<int>

  /** A batch opening of a Merkle tree: the opened leaves and the
      authentication nodes. */
  datatype BatchProof = BatchProof(values: seq<int>, nodes: seq<seq<Digest>>, depth: nat)

  datatype Backend = Backend(
    /** The field modulus. */
    p: int,
    /** The polynomial through the points `(xs[i], ys[i])`. */
    interpolate: (seq<int>, seq<int>) -> Poly,
    /** The polynomial of degree below 4 through four points; the batch form
        applies it to every row of the two matrices. */
    interpolateQuartic: (seq<int>, seq<int>) -> Poly,
    /** A polynomial evaluated at a point; the batch form for quartic
        polynomials evaluates each row the same way. */
    evalPolyAt: (Poly, int) -> int,
    /** The pseudo-random field element derived from a seed. */
    prng: Digest -> int,
    /** The root of the Merkle tree over these leaves. */
    root: seq<int> -> Digest,
    /** Opens the leaves at the given positions. */
    proveBatch: (seq<int>, seq<nat>) -> BatchProof,
    /** Checks an opening against a root. */
    verifyBatch: (Digest, seq<nat>, BatchProof) -> bool,
    /** The query positions derived from a root, for a column of the given
        length. */
    getFriIndexes: (Digest, nat) -> seq<nat>,
    /** The index generator's extension factor; 0 stands for unset. */
    extensionFactor: nat)

  // ---------------------------------------------------------------------------
  // What the prover and verifier rely on

  /** Query positions always lie inside the column they index. */
  ghost predicate IndexesInRange(b: Backend)
  {
    forall seed, n, i :: 0 <= i < |b.getFriIndexes(seed, n)| ==> b.getFriIndexes(seed, n)[i] < n
  }

  /** An opening of in-range positions carries the leaves at those positions,
      in order. */
  ghost predicate OpensLeaves(b: Backend)
  {
    forall leaves: seq<int>, ps: seq<nat> ::
      (forall i :: 0 <= i < |ps| ==> ps[i] < |leaves|) ==>
        && |b.proveBatch(leaves, ps).values| == |ps|
        && forall i :: 0 <= i < |ps| ==> b.proveBatch(leaves, ps).values[i] == leaves[ps[i]]
  }

  /** An honest opening verifies against the root of its tree. */
  ghost predicate OpeningsVerify(b: Backend)
  {
    forall leaves: seq<int>, ps: seq<nat> ::
      (forall i :: 0 <= i < |ps| ==> ps[i] < |leaves|) ==>
        b.verifyBatch(b.root(leaves), ps, b.proveBatch(leaves, ps))
  }

  /** An opening that verifies carries one value per position. */
  ghost predicate VerifiedShape(b: Backend)
  {
    forall r, ps, proof :: b.verifyBatch(r, ps, proof) ==> |proof.values| == |ps|
  }

  ghost predicate Valid(b: Backend)
  {
    b.p > 1 && IndexesInRange(b) && OpensLeaves(b) && OpeningsVerify(b) && VerifiedShape(b)
  }

  // ---------------------------------------------------------------------------
  // Reshaping

  /** `getPowerSeries(x, n)`: the first `n` powers of `x`. Read as a
      recurrence, the series starts at one and each entry is the previous one
      times `x` in the field. */
  function PowerSeries(x: int, n: nat, p: int): (s: seq<int>)
    requires p > 1
    ensures |s| == n
    ensures forall j :: 0 <= j < n ==> s[j] == ModArith.Exp(x, j, p)
    ensures n > 0 ==> s[0] == 1
    ensures forall j :: 0 <= j < n - 1 ==> s[j + 1] == ModArith.Mul(s[j], x % p, p)
  {
    var s := seq(n, j requires 0 <= j < n => ModArith.Exp(x, j, p));
    assert n > 0 ==> s[0] == 1 by {
      ModArith.ExpZero(x, p);
    }
    assert forall j :: 0 <= j < n - 1 ==> s[j + 1] == ModArith.Mul(s[j], x % p, p) by {
      forall j | 0 <= j < n - 1
        ensures s[j + 1] == ModArith.Mul(s[j], x % p, p)
      {
        ModArith.ExpAdd(x, j, 1, p);
        assert ModArith.Pow(x, 1) == x;
      }
    }
    s
  }

  /** `vectorToMatrix(v, 4, step)`: the entries of `v` at multiples of `step`
      cut into four equal columns laid side by side, so row `i` holds the
      entries at `i`, `i + R`, `i + 2R` and `i + 3R` times `step`, for `R`
      rows. This is the layout the verifier's position expansion assumes. */
  function ToRows(v: seq<int>, step: nat): (m: seq<seq<int>>)
    requires step >= 1
    ensures |m| == |v| / (4 * step)
    ensures forall i :: 0 <= i < |m| ==> |m[i]| == 4
  {
    var rows := |v| / (4 * step);
    seq(rows, i requires 0 <= i < rows =>
      seq(4, k requires 0 <= k < 4 => RowIndexInRange(i, k, rows, step, |v|); v[(i + k * rows) * step]))
  }

  lemma RowIndexInRange(i: nat, k: nat, rows: nat, step: nat, n: nat)
    requires i < rows && k < 4 && step >= 1 && rows == n / (4 * step)
    ensures (i + k * rows) * step < n
  {
    ModArith.MulMonotone(rows, k, 3);
    assert i + k * rows < 4 * rows;
    ModArith.MulMonotone(step, i + k * rows + 1, 4 * rows);
    assert (i + k * rows) * step + step <= 4 * rows * step;
    assert 4 * rows * step == (4 * step) * rows;
    assert (4 * step) * rows <= n;
  }

  /** Entry `(i, k)` of the rows of `v`. */
  lemma RowEntry(v: seq<int>, step: nat, i: nat, k: nat)
    requires step >= 1 && i < |v| / (4 * step) && k < 4
    ensures (i + k * (|v| / (4 * step))) * step < |v|
    ensures ToRows(v, step)[i][k] == v[(i + k * (|v| / (4 * step))) * step]
  {
    RowIndexInRange(i, k, |v| / (4 * step), step, |v|);
  }
}

=== FILE: Results.dfy ===
/** Failure-carrying result types shared by every component of the model.
    A `Failure` stands for an exception the source throws; the error
    payload says which throw site was reached. */
module Results {

  /** A value, or the error that stopped the computation producing it. */
  datatype Result<+T, +E> = Success(value: T) | Failure(error: E) {

    predicate IsFailure() {
      Failure?
    }

    function PropagateFailure<U>(): Result<U, E>
      requires Failure?
    {
      Failure(error)
    }

    function Extract(): T
      requires Success?
    {
      value
    }
  }

  /** The outcome of a check that returns nothing when it passes. */
  datatype Outcome<+E> = Pass | Fail(error: E) {

    predicate IsFailure() {
      Fail?
    }

    function PropagateFailure<U>(): Result<U, E>
      requires Fail?
    {
      Failure(error)
    }
  }

  datatype Option<+T> = None | Some(value: T)
}

=== FILE: SizeOf.dfy ===
/** The proof-size accountant: the exact serialized byte length of a STARK
    proof computed from its shape alone, with the wire format's hard bounds
    on array and matrix sizes.

    Sizes are counted the way the wire format lays a proof out: a digest is
    `hashDigestSize` bytes; an array is one length byte followed by its
    elements; a matrix is one column-count byte, one length byte per column
    and the column elements; a Merkle batch proof is its values array, its
    nodes matrix and one tree-depth byte. */
module SizeOf {
  import opened Results

  const MAX_ARRAY_LENGTH: nat := 256
  const MAX_MATRIX_COLUMN_LENGTH: nat := 127

  newtype byte = x: int | 0 <= x < 256
  type Bytes = seq<byte>

  /** A Merkle batch proof: the opened leaf values, and one column of
      sibling nodes per opened leaf. The depth is counted, not measured. */
  datatype BatchProof = BatchProof(values: seq<Bytes>, nodes: seq<seq<Bytes>>, depth: nat)

  datatype FriComponent = FriComponent(columnRoot: Bytes, columnProof: BatchProof, polyProof: BatchProof)

  /** The remainder is read through its `values` list. */
  datatype Remainder = Remainder(values: seq<Bytes>)

  datatype LdProof = LdProof(lcProof: BatchProof, components: seq<FriComponent>, remainder: Remainder)

  datatype StarkProof = StarkProof(evRoot: Bytes, evProof: BatchProof, ldProof: LdProof)

  datatype SizeError =
    | ArrayEmpty
    | ArrayTooLong(length: nat)
    | TooManyColumns(count: nat)
    | ColumnTooLong(length: nat)

  datatype LdSize = LdSize(lcProof: int, levels: seq<int>, total: int)

  datatype ProofSize = ProofSize(evProof: int, ldProof: LdSize, total: int)

  // ---------------------------------------------------------------------------
  // Byte content of arrays and matrices

  /** The elements of an array laid end to end. */
  function Concat(xs: seq<Bytes>): Bytes
  {
    if |xs| == 0 then [] else Concat(xs[..|xs| - 1]) + xs[|xs| - 1]
  }

  /** The elements of every column of a matrix laid end to end. */
  function ConcatColumns(m: seq<seq<Bytes>>): Bytes
  {
    if |m| == 0 then [] else ConcatColumns(m[..|m| - 1]) + Concat(m[|m| - 1])
  }

  /** An array fits the wire format: between 1 and 256 elements. */
  predicate ArrayFits(a: seq<Bytes>)
  {
    0 < |a| <= MAX_ARRAY_LENGTH
  }

  /** A matrix fits the wire format: at most 256 columns, each shorter than
      127. */
  predicate MatrixFits(m: seq<seq<Bytes>>)
  {
    |m| <= MAX_ARRAY_LENGTH && forall i :: 0 <= i < |m| ==> |m[i]| < MAX_MATRIX_COLUMN_LENGTH
  }

  predicate BatchProofFits(p: BatchProof)
  {
    ArrayFits(p.values) && MatrixFits(p.nodes)
  }

  /** Bytes of a batch proof: two length bytes, one byte per node column,
      one depth byte, and the contents. */
  function BatchProofBytes(p: BatchProof): nat
  {
    3 + |p.nodes| + |Concat(p.values)| + |ConcatColumns(p.nodes)|
  }

  /** The error the array bounds report. */
  function ArrayError(a: seq<Bytes>): SizeError
    requires !ArrayFits(a)
  {
    if |a| == 0 then ArrayEmpty else ArrayTooLong(|a|)
  }

  /** The first column, in order, that is too long. */
  function FirstLongColumn(m: seq<seq<Bytes>>): (i: nat)
    requires exists i :: 0 <= i < |m| && |m[i]| >= MAX_MATRIX_COLUMN_LENGTH
    ensures i < |m| && |m[i]| >= MAX_MATRIX_COLUMN_LENGTH
    ensures forall j :: 0 <= j < i ==> |m[j]| < MAX_MATRIX_COLUMN_LENGTH
  {
    if |m[0]| >= MAX_MATRIX_COLUMN_LENGTH then 0
    else
      assert exists i :: 0 <= i < |m[1..]| && |m[1..][i]| >= MAX_MATRIX_COLUMN_LENGTH by {
        var i :| 0 <= i < |m| && |m[i]| >= MAX_MATRIX_COLUMN_LENGTH;
        assert m[1..][i - 1] == m[i];
      }
      1 + FirstLongColumn(m[1..])
  }

  /** The error the matrix bounds report: the column count first, then the
      first column that is too long. */
  function MatrixError(m: seq<seq<Bytes>>): SizeError
    requires !MatrixFits(m)
  {
    if |m| > MAX_ARRAY_LENGTH then TooManyColumns(|m|) else ColumnTooLong(|m[FirstLongColumn(m)]|)
  }

  /** The error a batch proof reports: its values array is checked first. */
  function BatchProofError(p: BatchProof): SizeError
    requires !BatchProofFits(p)
  {
    if !ArrayFits(p.values) then ArrayError(p.values) else MatrixError(p.nodes)
  }

  // ---------------------------------------------------------------------------
  // sizeOfArray, sizeOfMatrix, sizeOfMerkleProof

  lemma ConcatStep(xs: seq<Bytes>, i: nat)
    requires i < |xs|
    ensures |Concat(xs[..i + 1])| == |Concat(xs[..i])| + |xs[i]|
  {
    assert xs[..i + 1][..i] == xs[..i];
  }

  lemma ConcatColumnsStep(m: seq<seq<Bytes>>, i: nat)
    requires i < |m|
    ensures |ConcatColumns(m[..i + 1])| == |ConcatColumns(m[..i])| + |Concat(m[i])|
  {
    assert m[..i + 1][..i] == m[..i];
  }

  /** One length byte plus the element bytes; an empty array or one longer
      than 256 elements cannot be represented. */
  method SizeOfArray(a: seq<Bytes>) returns (r: Result<int, SizeError>)
    ensures r.Success? <==> ArrayFits(a)
    ensures r.Failure? ==> r.error == ArrayError(a)
    ensures r.Success? ==> r.value == 1 + |Concat(a)|
  {
    if |a| == 0 {
      return Failure(ArrayEmpty);
    } else if |a| > MAX_ARRAY_LENGTH {
      return Failure(ArrayTooLong(|a|));
    }
    var size := 1;
    var i := 0;
    while i < |a|
      invariant 0 <= i <= |a|
      invariant size == 1 + |Concat(a[..i])|
    {
      ConcatStep(a, i);
      size := size + |a[i]|;
      i := i + 1;
    }
    assert a[..i] == a;
    return Success(size);
  }

  /** One column-count byte, one byte per column, and the element bytes;
      more than 256 columns, or a column of 127 or more nodes, cannot be
      represented. An empty matrix costs one byte. */
  method SizeOfMatrix(m: seq<seq<Bytes>>) returns (r: Result<int, SizeError>)
    ensures r.Success? <==> MatrixFits(m)
    ensures r.Failure? ==> r.error == MatrixError(m)
    ensures r.Success? ==> r.value == 1 + |m| + |ConcatColumns(m)|
  {
    if |m| > MAX_ARRAY_LENGTH {
      return Failure(TooManyColumns(|m|));
    }
    var size := 1 + |m|;
    var i := 0;
    while i < |m|
      invariant 0 <= i <= |m|
      invariant forall k :: 0 <= k < i ==> |m[k]| < MAX_MATRIX_COLUMN_LENGTH
      invariant size == 1 + |m| + |ConcatColumns(m[..i])|
    {
      var column := m[i];
      if |column| >= MAX_MATRIX_COLUMN_LENGTH {
        assert FirstLongColumn(m) == i;
        return Failure(ColumnTooLong(|column|));
      }
      var j := 0;
      while j < |column|
        invariant 0 <= j <= |column|
        invariant size == 1 + |m| + |ConcatColumns(m[..i])| + |Concat(column[..j])|
      {
        ConcatStep(column, j);
        size := size + |column[j]|;
        j := j + 1;
      }
      assert column[..j] == column;
      ConcatColumnsStep(m, i);
      i := i + 1;
    }
    assert m[..i] == m;
    return Success(size);
  }

  /** The values array, the nodes matrix and one tree-depth byte; either
      bound violation is passed on, the array's first. */
  method SizeOfMerkleProof(p: BatchProof) returns (r: Result<int, SizeError>)
    ensures r.Success? <==> BatchProofFits(p)
    ensures r.Failure? ==> r.error == BatchProofError(p)
    ensures r.Success? ==> r.value == BatchProofBytes(p)
  {
    var size := 0;
    var values :- SizeOfArray(p.values);
    size := size + values;
    var nodes :- SizeOfMatrix(p.nodes);
    size := size + nodes;
    size := size + 1;
    return Success(size);
  }

  // ---------------------------------------------------------------------------
  // sizeOf

  /** The batch proofs of a STARK proof in the order they are measured. */
  function BatchProofsInOrder(proof: StarkProof): (ps: seq<BatchProof>)
    ensures |ps| == 2 + 2 * |proof.ldProof.components|
  {
    [proof.evProof, proof.ldProof.lcProof] + ComponentProofs(proof.ldProof.components)
  }

  function ComponentProofs(cs: seq<FriComponent>): (ps: seq<BatchProof>)
    ensures |ps| == 2 * |cs|
    ensures forall i :: 0 <= i < |cs| ==> ps[2 * i] == cs[i].columnProof && ps[2 * i + 1] == cs[i].polyProof
  {
    if |cs| == 0 then [] else ComponentProofs(cs[..|cs| - 1]) + [cs[|cs| - 1].columnProof, cs[|cs| - 1].polyProof]
  }

  /** Batch proof `i` is the first, in measuring order, that does not fit. */
  predicate FirstMisfit(ps: seq<BatchProof>, i: nat)
  {
    i < |ps| && !BatchProofFits(ps[i]) && forall j :: 0 <= j < i ==> BatchProofFits(ps[j])
  }

  /** Bytes of FRI level `i`: the column root and two batch proofs. */
  function LevelBytes(c: FriComponent, hashDigestSize: int): int
  {
    hashDigestSize + BatchProofBytes(c.columnProof) + BatchProofBytes(c.polyProof)
  }

  /** One FRI level: the column root, then the column proof, then the
      polynomial proof; the first of the two proofs that does not fit decides
      the error. */
  method MeasureLevel(c: FriComponent, hashDigestSize: int) returns (r: Result<int, SizeError>)
    ensures r.Success? <==> BatchProofFits(c.columnProof) && BatchProofFits(c.polyProof)
    ensures r.Failure? ==> if !BatchProofFits(c.columnProof) then r.error == BatchProofError(c.columnProof)
                           else r.error == BatchProofError(c.polyProof)
    ensures r.Success? ==> r.value == LevelBytes(c, hashDigestSize)
  {
    var level := hashDigestSize;
    var column :- SizeOfMerkleProof(c.columnProof);
    level := level + column;
    var poly :- SizeOfMerkleProof(c.polyProof);
    level := level + poly;
    return Success(level);
  }

  function Sum(xs: seq<int>): int
  {
    if |xs| == 0 then 0 else Sum(xs[..|xs| - 1]) + xs[|xs| - 1]
  }

  /** The size report of a whole proof. The remainder level is
      `fieldElementSize` bytes per remainder value plus one length byte, with
      neither the 256-element bound nor the zero-length check of arrays. */
  method Size(proof: StarkProof, fieldElementSize: int, hashDigestSize: int)
    returns (r: Result<ProofSize, SizeError>)
    ensures r.Success? <==> forall i :: 0 <= i < |BatchProofsInOrder(proof)| ==> BatchProofFits(BatchProofsInOrder(proof)[i])
    ensures r.Failure? ==> exists i: nat :: FirstMisfit(BatchProofsInOrder(proof), i)
                                       && r.error == BatchProofError(BatchProofsInOrder(proof)[i])
    ensures r.Success? ==>
      var cs := proof.ldProof.components;
      var ld := r.value.ldProof;
      && r.value.evProof == BatchProofBytes(proof.evProof)
      && ld.lcProof == hashDigestSize + BatchProofBytes(proof.ldProof.lcProof)
      && |ld.levels| == |cs| + 1
      && (forall i :: 0 <= i < |cs| ==> ld.levels[i] == LevelBytes(cs[i], hashDigestSize))
      && ld.levels[|cs|] == |proof.ldProof.remainder.values| * fieldElementSize + 1
      && ld.total == 1 + ld.lcProof + Sum(ld.levels)
      && r.value.total == hashDigestSize + r.value.evProof + ld.total
  {
    ghost var ps := BatchProofsInOrder(proof);
    var cs := proof.ldProof.components;
    var size := hashDigestSize;
    var evProof := SizeOfMerkleProof(proof.evProof);
    if evProof.Failure? {
      assert FirstMisfit(ps, 0);
      return Failure(evProof.error);
    }
    size := size + evProof.value;
    var ldProof := 1;
    var lcProof := hashDigestSize;
    var lc := SizeOfMerkleProof(proof.ldProof.lcProof);
    if lc.Failure? {
      assert FirstMisfit(ps, 1);
      return Failure(lc.error);
    }
    lcProof := lcProof + lc.value;
    ldProof := ldProof + lcProof;
    var levels: seq<int> := [];
    var i := 0;
    while i < |cs|
      invariant 0 <= i <= |cs|
      invariant forall j :: 0 <= j < 2 + 2 * i ==> BatchProofFits(ps[j])
      invariant |levels| == i
      invariant forall j :: 0 <= j < i ==> levels[j] == LevelBytes(cs[j], hashDigestSize)
      invariant ldProof == 1 + lcProof + Sum(levels)
    {
      var measured := MeasureLevel(cs[i], hashDigestSize);
      assert ps[2 + 2 * i] == cs[i].columnProof && ps[3 + 2 * i] == cs[i].polyProof;
      if measured.Failure? {
        if !BatchProofFits(cs[i].columnProof) {
          assert FirstMisfit(ps, 2 + 2 * i);
        } else {
          assert FirstMisfit(ps, 3 + 2 * i);
        }
        return Failure(measured.error);
      }
      var level := measured.value;
      ldProof := ldProof + level;
      assert (levels + [level])[..i] == levels;
      levels := levels + [level];
      i := i + 1;
    }
    var remainder := |proof.ldProof.remainder.values| * fieldElementSize;
    remainder := remainder + 1;
    assert (levels + [remainder])[..|levels|] == levels;
    levels := levels + [remainder];
    ldProof := ldProof + remainder;
    size := size + ldProof;
    return Success(ProofSize(evProof.value, LdSize(lcProof, levels, ldProof), size));
  }
}

=== FILE: TraceBuilder.dfy ===
/** The execution-trace builder: expands per-round inputs and a compiled
    transition function into a register-by-step trace, and checks point
    assertions against a trace.

    The transition function and the readonly registers are capabilities
    built elsewhere; here they are function-valued parameters about which
    nothing is known beyond the evaluator contract `KeepsWidth`. */
module TraceBuilder {
  import opened Results
  import ModArith

  /** `new Array(n)` throws a `RangeError` unless `0 <= n < 2^32`. */
  const ARRAY_LENGTH_LIMIT: int := 0x1_0000_0000

  /** Row `r`, column `s` is the value of register `r` at step `s`. */
  type Trace = seq<seq<int>>

  /** The compiled transition function: current register values, readonly
      register values and global constants give the next register values,
      or the message of the exception it threw. */
  type Transition = (seq<int>, seq<int>, seq<int>) -> Result<seq<int>, string>

  /** A readonly register, queried by step and by the exact-step flag. */
  type ReadonlyRegister = (int, bool) -> int

  /** What the builder is configured with. */
  datatype Builder = Builder(registerCount: nat, transition: Transition, globalConstants: seq<int>)

  /** `roundSteps` is the period of input re-seeding; 0 never re-seeds,
      because `x % 0` is not a number and so never equals 0. */
  datatype Context = Context(totalSteps: int, roundSteps: nat)

  /** Why building the trace failed; always reported wrapped as
      `TraceGenerationFailed`. */
  datatype Cause =
    | InvalidArrayLength(length: int)
    | InputsMissing(register: nat)
    | EvaluatorFailed(message: string)

  datatype TraceError = TraceGenerationFailed(cause: Cause)

  // ---------------------------------------------------------------------------
  // Shape of a trace

  /** The evaluator contract: one next value per register. */
  ghost predicate KeepsWidth(f: Transition, n: nat)
  {
    forall cur: seq<int>, k: seq<int>, c: seq<int> ::
      |cur| == n && f(cur, k, c).Success? ==> |f(cur, k, c).value| == n
  }

  /** Every row has this many cells. Writing cell 0 of an array created with
      length 0 makes it one long. */
  function RowLength(ctx: Context): nat
  {
    if ctx.totalSteps >= 1 then ctx.totalSteps else 1
  }

  /** The number of transition steps taken, `totalSteps - 1` when positive. */
  function TransitionCount(ctx: Context): nat
  {
    if ctx.totalSteps >= 1 then ctx.totalSteps - 1 else 0
  }

  /** Steps at which inputs are injected instead of the transition output. */
  predicate IsRoundStart(ctx: Context, step: nat)
  {
    ctx.roundSteps != 0 && step % ctx.roundSteps == 0
  }

  /** The last round index any re-seed reads. */
  function LastRound(ctx: Context): nat
  {
    if ctx.roundSteps == 0 then 0 else TransitionCount(ctx) / ctx.roundSteps
  }

  /** What callers must supply: each register's inputs cover step 0 and every
      round start that the trace reaches. */
  predicate InputsCover(b: Builder, ctx: Context, inputs: seq<seq<int>>)
  {
    |inputs| >= b.registerCount ==>
      forall r :: 0 <= r < b.registerCount ==> |inputs[r]| > LastRound(ctx)
  }

  predicate Rectangular(t: Trace, width: nat)
  {
    forall r :: 0 <= r < |t| ==> |t[r]| == width
  }

  /** The values of all registers at step `s`. */
  function Column(t: Trace, s: nat): (col: seq<int>)
    requires forall r :: 0 <= r < |t| ==> s < |t[r]|
    ensures |col| == |t|
  {
    seq(|t|, r requires 0 <= r < |t| => t[r][s])
  }

  /** The readonly register values at step `s`, looked up in exact mode. */
  function ReadonlyValues(ks: seq<ReadonlyRegister>, s: nat): seq<int>
  {
    seq(|ks|, j requires 0 <= j < |ks| => ks[j](s, true))
  }

  /** The value register `r` takes at step `s + 1`, given the transition
      output `out` for step `s`. */
  function NextValue(ctx: Context, inputs: seq<seq<int>>, out: seq<int>, r: nat, s: nat): int
    requires r < |inputs| && r < |out|
  {
    if IsRoundStart(ctx, s + 1) then
      var round := (s + 1) / ctx.roundSteps;
      if round < |inputs[r]| then inputs[r][round] else 0
    else
      out[r]
  }

  /** Step `s` of `t` is one honest transition: the evaluator succeeds on
      column `s` and column `s + 1` is its output, or the inputs at a round
      start. */
  ghost predicate StepHolds(b: Builder, ctx: Context, inputs: seq<seq<int>>,
                            ks: seq<ReadonlyRegister>, t: Trace, s: nat)
    requires |t| <= |inputs| && forall r :: 0 <= r < |t| ==> s + 1 < |t[r]|
  {
    var out := b.transition(Column(t, s), ReadonlyValues(ks, s), b.globalConstants);
    && out.Success?
    && |out.value| == |t|
    && forall r :: 0 <= r < |t| ==> t[r][s + 1] == NextValue(ctx, inputs, out.value, r, s)
  }

  /** The first `n` columns of `t` are the start of the trace the builder
      computes. */
  ghost predicate PrefixHolds(b: Builder, ctx: Context, inputs: seq<seq<int>>,
                              ks: seq<ReadonlyRegister>, t: Trace, n: nat)
  {
    && |t| == b.registerCount
    && |inputs| >= b.registerCount
    && n >= 1
    && Rectangular(t, n)
    && (forall r :: 0 <= r < |t| ==> |inputs[r]| > 0 && t[r][0] == inputs[r][0])
    && (forall s :: 0 <= s < n - 1 ==> StepHolds(b, ctx, inputs, ks, t, s))
  }

  /** `t` is the execution trace of the builder on these inputs: the
      independent, cell-by-cell statement of what `Compute` returns. */
  ghost predicate IsTraceOf(b: Builder, ctx: Context, inputs: seq<seq<int>>,
                            ks: seq<ReadonlyRegister>, t: Trace)
  {
    && (b.registerCount > 0 ==> 0 <= ctx.totalSteps < ARRAY_LENGTH_LIMIT)
    && PrefixHolds(b, ctx, inputs, ks, t, RowLength(ctx))
    && (b.registerCount == 0 ==>
          forall s :: 0 <= s < TransitionCount(ctx) ==>
            b.transition([], ReadonlyValues(ks, s), b.globalConstants).Success?)
  }

  // ---------------------------------------------------------------------------
  // compute

  /** Builds the execution trace step by step. Any failure inside the build
      is reported as `TraceGenerationFailed` and no trace is returned. */
  method Compute(b: Builder, ctx: Context, inputs: seq<seq<int>>, ks: seq<ReadonlyRegister>)
    returns (res: Result<Trace, TraceError>)
    requires KeepsWidth(b.transition, b.registerCount)
    requires InputsCover(b, ctx, inputs)
    ensures res.Success? ==> IsTraceOf(b, ctx, inputs, ks, res.value)
    ensures res.Success? ==> |res.value| == b.registerCount && Rectangular(res.value, RowLength(ctx))
    ensures res.Failure? <==> !exists t :: IsTraceOf(b, ctx, inputs, ks, t)
  {
    var n := b.registerCount;
    if n > 0 && (ctx.totalSteps < 0 || ctx.totalSteps >= ARRAY_LENGTH_LIMIT) {
      NoTraceForInvalidLength(b, ctx, inputs, ks);
      return Failure(TraceGenerationFailed(InvalidArrayLength(ctx.totalSteps)));
    }
    if |inputs| < n {
      return Failure(TraceGenerationFailed(InputsMissing(|inputs|)));
    }
    // seed step 0 of every register from the inputs
    var trace: Trace := seq(n, r requires 0 <= r < n => [inputs[r][0]]);
    var rValues := Column(trace, 0);
    var step := 0;
    while step < TransitionCount(ctx)
      invariant 0 <= step <= TransitionCount(ctx)
      invariant PrefixHolds(b, ctx, inputs, ks, trace, step + 1)
      invariant rValues == Column(trace, step)
      invariant n == 0 ==> forall s :: 0 <= s < step ==>
                  b.transition([], ReadonlyValues(ks, s), b.globalConstants).Success?
    {
      var kValues := ReadonlyValues(ks, step);
      var out := b.transition(rValues, kValues, b.globalConstants);
      if out.Failure? {
        TraceExtendsPrefix(b, ctx, inputs, ks, trace, step);
        return Failure(TraceGenerationFailed(EvaluatorFailed(out.error)));
      }
      var nValues := out.value;
      var next := seq(n, r requires 0 <= r < n => NextValue(ctx, inputs, nValues, r, step));
      var old_trace := trace;
      trace := seq(n, r requires 0 <= r < n => trace[r] + [next[r]]);
      assert forall r, s :: 0 <= r < n && 0 <= s <= step ==> trace[r][s] == old_trace[r][s];
      assert forall s :: 0 <= s <= step ==> Column(trace, s) == Column(old_trace, s);
      assert StepHolds(b, ctx, inputs, ks, trace, step);
      forall s | 0 <= s < step
        ensures StepHolds(b, ctx, inputs, ks, trace, s)
      {
        assert StepHolds(b, ctx, inputs, ks, old_trace, s);
      }
      step := step + 1;
      rValues := next;
    }
    assert IsTraceOf(b, ctx, inputs, ks, trace);
    return Success(trace);
  }

  /** Cell by cell: step 0 holds the first input; a round start holds the
      input of its round, whatever the transition returned; every other step
      holds the transition's output for the previous column. */
  /** Step 0 of every register holds its first input, whatever the step
      count. */
  lemma TraceFirstCell(b: Builder, ctx: Context, inputs: seq<seq<int>>, ks: seq<ReadonlyRegister>, t: Trace,
                       r: nat)
    requires IsTraceOf(b, ctx, inputs, ks, t) && r < b.registerCount
    ensures |t[r]| == RowLength(ctx) >= 1
    ensures |inputs[r]| > 0 && t[r][0] == inputs[r][0]
  {
    assert PrefixHolds(b, ctx, inputs, ks, t, RowLength(ctx));
  }

  lemma TraceCells(b: Builder, ctx: Context, inputs: seq<seq<int>>, ks: seq<ReadonlyRegister>, t: Trace,
                   r: nat, s: nat)
    requires InputsCover(b, ctx, inputs) && IsTraceOf(b, ctx, inputs, ks, t)
    requires r < b.registerCount && s < TransitionCount(ctx)
    ensures |inputs[r]| > 0 && t[r][0] == inputs[r][0]
    ensures IsRoundStart(ctx, s + 1) ==>
              (s + 1) / ctx.roundSteps < |inputs[r]| && t[r][s + 1] == inputs[r][(s + 1) / ctx.roundSteps]
    ensures !IsRoundStart(ctx, s + 1) ==>
              var out := b.transition(Column(t, s), ReadonlyValues(ks, s), b.globalConstants);
              out.Success? && |out.value| == |t| && t[r][s + 1] == out.value[r]
  {
    assert StepHolds(b, ctx, inputs, ks, t, s);
    if IsRoundStart(ctx, s + 1) {
      RoundWithinInputs(ctx, s + 1);
    }
  }

  /** The round index read at a round start inside the trace exists. */
  lemma RoundWithinInputs(ctx: Context, step: nat)
    requires 1 <= step <= TransitionCount(ctx) && IsRoundStart(ctx, step)
    ensures step / ctx.roundSteps <= LastRound(ctx)
  {
    DivMonotone(step, TransitionCount(ctx), ctx.roundSteps);
  }

  lemma DivMonotone(a: nat, b: nat, d: nat)
    requires a <= b && d > 0
    ensures a / d <= b / d
  {
    var qa, qb := a / d, b / d;
    assert (qa - qb) * d < d;
    ModArith.MulBelow(qa - qb, d);
  }

  /** `new Array(steps)` accepts only lengths from 0 to `2^32 - 1`; with a
      register to allocate, any other step count admits no trace. */
  lemma NoTraceForInvalidLength(b: Builder, ctx: Context, inputs: seq<seq<int>>, ks: seq<ReadonlyRegister>)
    requires b.registerCount > 0 && (ctx.totalSteps < 0 || ctx.totalSteps >= ARRAY_LENGTH_LIMIT)
    ensures !exists t :: IsTraceOf(b, ctx, inputs, ks, t)
  {
  }

  /** Two traces that both satisfy the first `n` columns' rules agree on them:
      the builder is deterministic. */
  lemma {:induction false} PrefixesAgree(b: Builder, ctx: Context, inputs: seq<seq<int>>,
                                         ks: seq<ReadonlyRegister>, t: Trace, u: Trace, n: nat)
    requires PrefixHolds(b, ctx, inputs, ks, t, n) && PrefixHolds(b, ctx, inputs, ks, u, n)
    ensures forall r, s :: 0 <= r < |t| && 0 <= s < n ==> t[r][s] == u[r][s]
    decreases n
  {
    if n > 1 {
      var t', u' := Truncate(t, n - 1), Truncate(u, n - 1);
      TruncatePreserves(b, ctx, inputs, ks, t, n - 1, n);
      TruncatePreserves(b, ctx, inputs, ks, u, n - 1, n);
      PrefixesAgree(b, ctx, inputs, ks, t', u', n - 1);
      assert Column(t, n - 2) == Column(u, n - 2) by {
        assert forall r :: 0 <= r < |t| ==> t[r][n - 2] == t'[r][n - 2] && u[r][n - 2] == u'[r][n - 2];
      }
      assert StepHolds(b, ctx, inputs, ks, t, n - 2);
      assert StepHolds(b, ctx, inputs, ks, u, n - 2);
      forall r, s | 0 <= r < |t| && 0 <= s < n
        ensures t[r][s] == u[r][s]
      {
        if s < n - 1 {
          assert t[r][s] == t'[r][s] && u[r][s] == u'[r][s];
        }
      }
    }
  }

  function Truncate(t: Trace, m: nat): (u: Trace)
    requires forall r :: 0 <= r < |t| ==> m <= |t[r]|
    ensures |u| == |t| && Rectangular(u, m)
    ensures forall r, s :: 0 <= r < |t| && 0 <= s < m ==> u[r][s] == t[r][s]
  {
    seq(|t|, r requires 0 <= r < |t| => t[r][..m])
  }

  lemma TruncatePreserves(b: Builder, ctx: Context, inputs: seq<seq<int>>,
                          ks: seq<ReadonlyRegister>, t: Trace, m: nat, n: nat)
    requires PrefixHolds(b, ctx, inputs, ks, t, n) && 1 <= m <= n
    ensures PrefixHolds(b, ctx, inputs, ks, Truncate(t, m), m)
  {
    var u := Truncate(t, m);
    forall s | 0 <= s < m - 1
      ensures StepHolds(b, ctx, inputs, ks, u, s)
    {
      assert Column(u, s) == Column(t, s);
      assert StepHolds(b, ctx, inputs, ks, t, s);
    }
  }

  /** The execution trace, when there is one, is unique. */
  lemma TraceIsUnique(b: Builder, ctx: Context, inputs: seq<seq<int>>,
                      ks: seq<ReadonlyRegister>, t: Trace, u: Trace)
    requires IsTraceOf(b, ctx, inputs, ks, t) && IsTraceOf(b, ctx, inputs, ks, u)
    ensures t == u
  {
    PrefixesAgree(b, ctx, inputs, ks, t, u, RowLength(ctx));
    forall r | 0 <= r < |t|
      ensures t[r] == u[r]
    {
    }
  }

  /** Every trace agrees with a correct prefix, so the evaluator succeeds on
      the prefix's last column whenever any trace exists. */
  lemma TraceExtendsPrefix(b: Builder, ctx: Context, inputs: seq<seq<int>>,
                           ks: seq<ReadonlyRegister>, p: Trace, step: nat)
    requires step < TransitionCount(ctx)
    requires PrefixHolds(b, ctx, inputs, ks, p, step + 1)
    ensures forall t :: IsTraceOf(b, ctx, inputs, ks, t) ==>
              b.transition(Column(p, step), ReadonlyValues(ks, step), b.globalConstants).Success?
  {
    forall t | IsTraceOf(b, ctx, inputs, ks, t)
      ensures b.transition(Column(p, step), ReadonlyValues(ks, step), b.globalConstants).Success?
    {
      var u := Truncate(t, step + 1);
      TruncatePreserves(b, ctx, inputs, ks, t, step + 1, RowLength(ctx));
      PrefixesAgree(b, ctx, inputs, ks, p, u, step + 1);
      assert Column(t, step) == Column(p, step) by {
        assert forall r :: 0 <= r < |t| ==> t[r][step] == u[r][step];
      }
      if b.registerCount > 0 {
        assert StepHolds(b, ctx, inputs, ks, t, step);
      } else {
        assert Column(p, step) == [];
      }
    }
  }

  // ---------------------------------------------------------------------------
  // validateAssertions

  /** A claim that register `register` holds `value` at step `step`. */
  datatype Assertion = Assertion(register: int, step: int, value: int)

  /** The errors of `validateAssertions`. The first three are plain errors
      about malformed input; `ConflictsWithTrace` is the integrity error. */
  datatype AssertionError =
    | EmptyTrace
    | RegisterOutOfRange(register: int)
    | StepOutOfRange(step: int)
    | ConflictsWithTrace(step: int, register: int)

  predicate IsStarkError(e: AssertionError)
  {
    e.ConflictsWithTrace?
  }

  /** The coordinates of `a` lie inside the register bank and the trace. */
  predicate InRange(t: Trace, a: Assertion)
    requires |t| > 0
  {
    0 <= a.register < |t| && 0 <= a.step < |t[0]|
  }

  /** `a` holds in `t`. A row shorter than the first reads as a value that
      matches nothing. */
  predicate Holds(t: Trace, a: Assertion)
    requires |t| > 0
  {
    InRange(t, a) && a.step < |t[a.register]| && t[a.register][a.step] == a.value
  }

  /** One assertion: the range checks come before the value comparison. */
  function CheckAssertion(t: Trace, a: Assertion): (r: Outcome<AssertionError>)
    requires |t| > 0
    ensures r.Pass? <==> Holds(t, a)
    ensures r.Fail? ==> (IsStarkError(r.error) <==> InRange(t, a))
    ensures r.Fail? && IsStarkError(r.error) ==> r.error == ConflictsWithTrace(a.step, a.register)
  {
    if a.register < 0 || a.register >= |t| then Fail(RegisterOutOfRange(a.register))
    else if a.step < 0 || a.step >= |t[0]| then Fail(StepOutOfRange(a.step))
    else if a.step >= |t[a.register]| || t[a.register][a.step] != a.value then
      Fail(ConflictsWithTrace(a.step, a.register))
    else Pass
  }

  /** The assertions are checked in list order and the first one that fails
      decides the error. */
  function CheckAll(t: Trace, assertions: seq<Assertion>): (r: Outcome<AssertionError>)
    requires |t| > 0
    ensures r.Pass? <==> forall i :: 0 <= i < |assertions| ==> Holds(t, assertions[i])
    ensures r.Fail? ==> exists i :: 0 <= i < |assertions| && FirstFailing(t, assertions, i)
                                  && r == CheckAssertion(t, assertions[i])
  {
    if |assertions| == 0 then Pass
    else match CheckAssertion(t, assertions[0])
      case Fail(e) => assert FirstFailing(t, assertions, 0); Fail(e)
      case Pass =>
        var rest := CheckAll(t, assertions[1..]);
        if rest.Fail? then
          var i :| 0 <= i < |assertions| - 1 && FirstFailing(t, assertions[1..], i)
                   && rest == CheckAssertion(t, assertions[1..][i]);
          assert FirstFailing(t, assertions, i + 1);
          rest
        else
          assert forall i :: 1 <= i < |assertions| ==> assertions[i] == assertions[1..][i - 1];
          rest
  }

  /** Assertion `i` is the first in the list that does not hold. */
  predicate FirstFailing(t: Trace, assertions: seq<Assertion>, i: nat)
    requires |t| > 0 && i < |assertions|
  {
    !Holds(t, assertions[i]) && forall j :: 0 <= j < i ==> Holds(t, assertions[j])
  }

  /** Succeeds with no effect exactly when every assertion lies inside the
      trace and matches it. A trace with no registers has no first row and
      fails before any assertion is looked at. */
  function ValidateAssertions(t: Trace, assertions: seq<Assertion>): (r: Outcome<AssertionError>)
    ensures r.Pass? <==> |t| > 0 && forall i :: 0 <= i < |assertions| ==> Holds(t, assertions[i])
    ensures |t| == 0 ==> r == Fail(EmptyTrace)
    ensures r.Fail? && |t| > 0 ==>
      exists i :: 0 <= i < |assertions| && FirstFailing(t, assertions, i)
                  && r == CheckAssertion(t, assertions[i])
                  && (IsStarkError(r.error) <==> InRange(t, assertions[i]))
  {
    if |t| == 0 then Fail(EmptyTrace) else CheckAll(t, assertions)
  }

  // ---------------------------------------------------------------------------
  // Assertions read back from a trace

  /** Assertions that pin cells of `t` to the values `t` holds there. */
  function ReadAssertions(t: Trace, cells: seq<(nat, nat)>): (as_: seq<Assertion>)
    requires forall i :: 0 <= i < |cells| ==> cells[i].0 < |t| && cells[i].1 < |t[cells[i].0]|
    ensures |as_| == |cells|
  {
    seq(|cells|, i requires 0 <= i < |cells| =>
      Assertion(cells[i].0, cells[i].1, t[cells[i].0][cells[i].1]))
  }

  /** Assertions read from a rectangular trace always validate against it. */
  lemma ReadAssertionsValidate(t: Trace, width: nat, cells: seq<(nat, nat)>)
    requires |t| > 0 && Rectangular(t, width)
    requires forall i :: 0 <= i < |cells| ==> cells[i].0 < |t| && cells[i].1 < width
    ensures ValidateAssertions(t, ReadAssertions(t, cells)) == Pass
  {
    var as_ := ReadAssertions(t, cells);
    assert forall i :: 0 <= i < |as_| ==> Holds(t, as_[i]);
  }

  /** Changing the value of one read-back assertion makes validation fail
      with the integrity error for exactly that cell. */
  lemma ChangedAssertionFails(t: Trace, width: nat, cells: seq<(nat, nat)>, k: nat, v: int)
    requires |t| > 0 && Rectangular(t, width)
    requires forall i :: 0 <= i < |cells| ==> cells[i].0 < |t| && cells[i].1 < width
    requires k < |cells| && v != t[cells[k].0][cells[k].1]
    ensures var as_ := ReadAssertions(t, cells);
            ValidateAssertions(t, as_[k := as_[k].(value := v)])
              == Fail(ConflictsWithTrace(cells[k].1, cells[k].0))
  {
    var as_ := ReadAssertions(t, cells);
    var bad := as_[k := as_[k].(value := v)];
    var r := ValidateAssertions(t, bad);
    assert !Holds(t, bad[k]);
    var i :| 0 <= i < |bad| && FirstFailing(t, bad, i) && r == CheckAssertion(t, bad[i]);
    assert forall j :: 0 <= j < |bad| && j != k ==> bad[j] == as_[j] && Holds(t, bad[j]);
    assert i == k;
  }

  /** Changing a trace cell that an assertion pins makes validation fail. */
  lemma ChangedCellFails(t: Trace, width: nat, cells: seq<(nat, nat)>, k: nat, v: int)
    requires |t| > 0 && Rectangular(t, width)
    requires forall i :: 0 <= i < |cells| ==> cells[i].0 < |t| && cells[i].1 < width
    requires k < |cells| && v != t[cells[k].0][cells[k].1]
    ensures var (r, s) := cells[k];
            ValidateAssertions(t[r := t[r][s := v]], ReadAssertions(t, cells)).Fail?
  {
    var (r, s) := cells[k];
    var t' := t[r := t[r][s := v]];
    assert !Holds(t', ReadAssertions(t, cells)[k]);
  }

  /** A computed trace validates every assertion read from it, as long as it
      has at least one register. */
  lemma ComputedTraceValidates(b: Builder, ctx: Context, inputs: seq<seq<int>>,
                               ks: seq<ReadonlyRegister>, t: Trace, cells: seq<(nat, nat)>)
    requires IsTraceOf(b, ctx, inputs, ks, t) && b.registerCount > 0
    requires forall i :: 0 <= i < |cells| ==> cells[i].0 < |t| && cells[i].1 < RowLength(ctx)
    ensures ValidateAssertions(t, ReadAssertions(t, cells)) == Pass
  {
    ReadAssertionsValidate(t, RowLength(ctx), cells);
  }
}
